=== FILE: README.md ===
# xd: a verified model of the SIMD hex-dump line encoder

`xd.c` is a fast binary dump. Each 16-byte block of input becomes one line
of text:

- `d` hex digits of the running offset;
- two spaces;
- a 64-cell hex field, with four cells per byte: the high digit, the low
  digit, a space and a space;
- a 16-cell sidebar showing each byte if it is printable and `.` otherwise;
- a newline.

A line is therefore `d + 83` bytes long. `conv` builds the line with SSE
intrinsics, sixteen byte lanes at a time. `patch` blanks the cells of the
bytes past the end of a short last block. The block loop of `main` calls
`conv` once per block of a chunk, advancing the offset by 16 each time, and
calls `patch` once after a short last block.

This project models those three pieces in Dafny and proves what they write.
The modules are listed below, from the bottom up.

- `Arith` (`arith.dfy`): powers, division and residue facts, and the byte
  holding an integer below 256.
- `Lanes` (`lanes.dfy`): each intrinsic `conv` uses, defined by its lane
  semantics. A register is a `Vec`, a sequence of 16 `bv8` lanes. `size_t`
  and the 64-bit offset are `U64`, an integer in `[0, 2^64)`.
- `Macros` (`macros.dfy`): `conv_table`, `flip_table`, the constant vectors
  and every `_` macro. Each is built from the intrinsics exactly as the C
  macro composes them, and each has a lemma stating its lanes.
- `Text` (`text.dfy`): lowercase hex digits, the offset field `HexOf`, the
  printable test and the sidebar cell. It also holds parsers (`ParseHex`,
  `ParseByte`) that read digits back.
- `Layout` (`layout.dfy`): the reference line `Line(ofs, bytes, d)`,
  described cell by cell with no vectors. Lemmas give where each part sits
  and that each part reads back.
- `Encoder` (`encoder.dfy`): `Conv`, the vector code store by store.
  `ConvLayout` proves that `Conv` stores `Line`. This module also holds the
  fifteen-digit finding below and the corrected `ConvPadded`.
- `Patcher` (`patcher.dfy`): `Patch`, the loop of `patch`, and `Patched`,
  its result described as a whole. Lemmas show that the reference line of
  a full block followed by `patch` gives the line of the short block. `conv`
  writes that reference line for `d <= 14` (`ConvLine`), and the corrected
  `ConvPadded` writes it for every `d < 16`.
- `Driver` (`driver.dfy`):
  - `EncodeBlocks` is the block loop of `main`, and `EncodeChunk` is that
    loop plus the patch.
  - `Dump` is the reference for a whole chunk: line `k` shows block `k` at
    offset `ofs + 16k`, wrapped modulo 2^64 like `size_t`.
  - `Stride(n, k)` is `n * k`, counted out by recursion (`StrideIsProduct`).

Three facts about the code shape the model:

- **Printable bytes.** The printable test `_isascii` compares `byte + 1`
  with `' '` as signed bytes. A byte of `0x7f` or above becomes negative or
  zero after the `+ 1`, so the test passes exactly `0x20..0x7e`. The
  sidebar shows `.` for every other byte, including `0x7f..0xff`.
- **Wide offsets.** `_flip` drops the digits beyond the first `d`, so the
  offset field shows `ofs mod 16^d` (`Layout.LineOffset`,
  `Driver.OffsetDigits`).
- **Number of digits.** `conv` requires `d < 16`, after the comment on
  `addr_digits`. `main` passes `cols = 12`. The model covers every `d`
  below 16, and at `d = 15` it shows the finding below.

## Model

| member | source | states |
|---|---|---|
| Lanes.Load | xd.c:36 | `_load` (used at xd.c:60) is the 16 bytes at the address, lane 0 first |
| Lanes.Set1 | xd.c:33-34 | `_mm_set1_epi8` puts one byte in all 16 lanes |
| Lanes.SetZero | xd.c:40 | `_mm_setzero_si128` is zero in every lane |
| Lanes.And | xd.c:38 | `_mm_and_si128` ands the two registers lane by lane |
| Lanes.Or | xd.c:38-40 | `_mm_or_si128` ors the two registers lane by lane |
| Lanes.Cvtsi64Si128 | xd.c:53 | `_mm_cvtsi64_si128` puts the eight little-endian bytes of the 64-bit offset in lanes 0..7 and zeros in lanes 8..15 |
| Lanes.AddEpi8 | xd.c:47 | `_mm_add_epi8`, in `_finish` and in `_isascii` (xd.c:42), adds lane by lane modulo 256 |
| Lanes.SubEpi8 | xd.c:46 | `_mm_sub_epi8` subtracts lane by lane modulo 256 |
| Lanes.CmpGtEpi8 | xd.c:42 | `_mm_cmpgt_epi8` gives 0xff where lane a exceeds lane b as signed bytes, else 0 |
| Lanes.BlendvEpi8 | xd.c:43 | `_mm_blendv_epi8(a, b, mask)` takes lane b where the mask lane has bit 7 set, else lane a |
| Lanes.ShuffleEpi8 | xd.c:41 | `_mm_shuffle_epi8(a, idx)`, in `_asciibase` and in `_flip` (xd.c:46), gives 0 where the index lane has bit 7 set, else lane `idx & 15` of a |
| Lanes.UnpackHiEpi8 | xd.c:40 | `_mm_unpackhi_epi8(a, b)` interleaves lanes 8..15 of a and b, a first |
| Lanes.SrliSi128 | xd.c:45 | `_mm_srli_si128(a, n)` shifts the whole register down by n lanes, filling with zeros |
| Lanes.Slli16 | xd.c:38-40 | `_mm_slli_epi16` shifts each little-endian 16-bit lane up, dropping the bits past 16 |
| Lanes.Srli16 | xd.c:39-40 | `_mm_srli_epi16` shifts each 16-bit lane down, filling with zeros |
| Lanes.CvtEpu8Epi16 | xd.c:38-39 | `_mm_cvtepu8_epi16` zero-extends the low eight lanes to 16-bit lanes |
| Lanes.CvtEpu16Epi32 | xd.c:44-45 | `_mm_cvtepu16_epi32` zero-extends the low four 16-bit lanes to 32-bit lanes |
| Lanes.Store | xd.c:37 | `_store` replaces exactly the 16 bytes at the address with the lanes of the vector; every other byte and the length are kept |
| Lanes.CvtEpu8Epi16Lane | xd.c:38-39 | `_mm_cvtepu8_epi16` zero-extends byte j of the low half into 16-bit lane j |
| Macros.ConvTable | xd.c:23-26 | `conv_table` holds '0'..'9', 'a'..'f', each less `' '` |
| Macros.FlipTable | xd.c:28-30 | `flip_table` holds 15, 14, ..., 0 |
| Macros.Z | xd.c:23 | `z(c)` offsets a character by -' ', wrapping modulo 256 |
| Macros.Ones | xd.c:33 | `tv` holds 1 in every lane |
| Macros.NibbleMask | xd.c:33 | `mv` holds 0x0f in every lane |
| Macros.Spaces | xd.c:34 | `sv` holds `' '` in every lane |
| Macros.Dots | xd.c:34 | `dv` holds `'.'` in every lane |
| Macros.UnpackNibbleFw | xd.c:38 | `_unpack_nibble_fw` as the macro composes it: widen, or with itself shifted up by 4, mask with 0x0f |
| Macros.UnpackNibbleLow | xd.c:39 | `_unpack_nibble_low` as composed: widen, or with itself shifted up by 12, shift down by 4 |
| Macros.UnpackNibbleHigh | xd.c:40 | `_unpack_nibble_high` as composed: unpack the high half with zero, then as `_unpack_nibble_low` |
| Macros.AsciiBase | xd.c:41 | `_asciibase` is a shuffle of `conv_table` by the argument |
| Macros.IsAscii | xd.c:42 | `_isascii` compares argument plus one with `' '`, signed |
| Macros.Select | xd.c:43 | `_select(m, y, x)` is a blend taking y where m is set, else x |
| Macros.InterleaveLow | xd.c:44 | `_interleave_low` is `_mm_cvtepu16_epi32` of the argument |
| Macros.InterleaveHigh | xd.c:45 | `_interleave_high` is `_mm_cvtepu16_epi32` of the argument shifted down by 8 lanes |
| Macros.Flip | xd.c:46 | `_flip(x, d)` shuffles x by `flip_table` less `16 - d` in every lane |
| Macros.Finish | xd.c:47 | `_finish` adds `' '` to every lane |
| Macros.UnpackNibbleFwLane | xd.c:38 | `_unpack_nibble_fw` puts the low nibble of byte j in lane 2j and its high nibble in lane 2j+1 |
| Macros.UnpackNibbleFwLanes | xd.c:38 | the same for all eight low bytes at once: lane n holds nibble n, least significant first |
| Macros.SplitLane | xd.c:39-40 | the shift-or-shift core of both split unpacks turns a lane pair (b, 0) into (b >> 4, b & 15) |
| Macros.UnpackNibbleLowLanes | xd.c:39 | `_unpack_nibble_low` turns bytes 0..7 into (high nibble, low nibble) lane pairs |
| Macros.UnpackNibbleHighLanes | xd.c:40 | `_unpack_nibble_high` turns bytes 8..15 into (high nibble, low nibble) lane pairs |
| Macros.TableEntry | xd.c:23-26 | entry n of `conv_table` plus `' '` is the lowercase hex digit of n |
| Macros.AsciiBaseLanes | xd.c:41 | `_asciibase` followed by `_finish` maps each nibble lane to its hex digit, and each lane with bit 7 set to a space |
| Macros.SignedSuccessor | xd.c:42 | the signed comparison `b + 1 > ' '` holds exactly when b is in 0x20..0x7e |
| Macros.IsAsciiLanes | xd.c:42 | `_isascii` is all ones exactly in the lanes of printable bytes and zero elsewhere |
| Macros.SelectAsciiLanes | xd.c:42-43 | `_select(_isascii(x), x, '.')` is each byte if printable and `.` otherwise |
| Macros.WidenLane | xd.c:44-45 | `_mm_cvtepu16_epi32` zero-extends 16-bit lane m to 32 bits: its two bytes land at 4m, 4m+1, followed by zeros at 4m+2, 4m+3 |
| Macros.InterleaveLowLanes | xd.c:44 | `_interleave_low` spreads byte pairs 0..3 into 32-bit lanes, each pair followed by two zero bytes |
| Macros.InterleaveHighLanes | xd.c:45 | `_interleave_high` does the same for byte pairs 4..7 |
| Macros.FlipTableEntry | xd.c:28-30 | `flip_table` holds 15 - k in lane k |
| Macros.FlipIndex | xd.c:46 | `flip_table[k] - (16 - d)` is the index d-1-k for k < d, and has bit 7 set for k >= d |
| Macros.FlipLanes | xd.c:46 | `_flip(x, d)` reverses lanes 0..d-1 into place and zeroes every lane from d on |
| Text.HexDigitValue | xd.c:24-25 | the hex digit of a nibble is one of '0'..'9', 'a'..'f' and reads back as the nibble |
| Text.HexOfDigit | xd.c:52-55 | character k of the offset field is the digit of nibble d-1-k of the offset, most significant first |
| Text.ParseHexOf | xd.c:52-56 | the d offset digits read back as the offset modulo 16^d |
| Layout.HexCellsRoundTrip | xd.c:61-64 | the two digit cells of a byte read back as the byte |
| Layout.LineAt | xd.c:49-75 | where each part of a line sits: digits below d, two spaces, hex field, sidebar, and a newline at d+82 |
| Layout.LineOffset | xd.c:52-57 | a line starts with the offset digits, which read back as ofs mod 16^d; two spaces follow and a newline ends it |
| Layout.LineHexCell | xd.c:59-69 | cell c of byte i of the hex field is `HexCell(byte, c)`, or a space for a byte missing from a short block |
| Layout.LineByte | xd.c:59-69 | the digits of byte i sit at d+2+4i and d+3+4i and parse back to the byte |
| Layout.LineGaps | xd.c:59-69 | two spaces follow the digits of every byte, and a missing byte's digit cells are spaces too |
| Layout.LineSide | xd.c:71-73 | sidebar cell i is the byte exactly when it is printable, `.` otherwise, and a space for a missing byte |
| Encoder.OffsetVector | xd.c:52-55 | `ofsv`: `_finish(_flip(_asciibase(_unpack_nibble_fw(_mm_cvtsi64_si128(ofs))), d))` |
| Encoder.HexLowLow | xd.c:61 | `all`: the hex vector of the low-nibble unpack, interleaved low |
| Encoder.HexLowHigh | xd.c:62 | `alh`: the same, interleaved high |
| Encoder.HexHighLow | xd.c:63 | `ahl`: the hex vector of the high-nibble unpack, interleaved low |
| Encoder.HexHighHigh | xd.c:64 | `ahh`: the same, interleaved high |
| Encoder.AsciiVector | xd.c:72 | `pv`: `_select(_isascii(ar), ar, dv)` |
| Encoder.Conv | xd.c:17-76 | conv as written: the offset store, the four hex stores and the sidebar store at their positions, then the newline; it keeps the buffer length and returns d+83 |
| Encoder.LeByteNibbles | xd.c:53 | the low and high nibbles of little-endian byte j of the offset are its nibbles 2j and 2j+1 |
| Encoder.OffsetNibbles | xd.c:53 | `_unpack_nibble_fw(_mm_cvtsi64_si128(ofs))` holds nibble n of the offset in lane n |
| Encoder.OffsetVectorLanes | xd.c:52-55 | `ofsv` holds the d offset digits, most significant first, and spaces after them |
| Encoder.HexLowCells | xd.c:61-62 | `all` and `alh` hold the four hex cells of bytes 0..3 and 4..7 |
| Encoder.HexHighCells | xd.c:63-64 | `ahl` and `ahh` hold the four hex cells of bytes 8..11 and 12..15 |
| Encoder.HexQuarters | xd.c:61-64 | the four stored hex vectors `all`, `alh`, `ahl`, `ahh` are the four 16-cell quarters of the reference hex field, in order |
| Encoder.HexVectors | xd.c:66-69 | the 64 bytes the four hex stores write: `all`, `alh`, `ahl`, `ahh` in store order |
| Encoder.HexVectorsField | xd.c:61-69 | the four hex vectors, stored in order, are exactly the reference hex field |
| Encoder.StoresInOrder | xd.c:66-69 | four 16-byte stores at p, p + 16, p + 32 and p + 48 leave the concatenation of the four vectors at p |
| Encoder.ConvHexStores | xd.c:66-69 | each byte conv leaves between line offsets d + 2 and d + 65 is the matching byte of the four hex vectors stored in order |
| Encoder.ConvStores | xd.c:49-75 | which store leaves each byte: offset vector, four hex vectors, sidebar, newline, or the old byte |
| Encoder.ConvCell | xd.c:49-75 | every byte conv writes is the reference line's byte, and every other byte is unchanged |
| Encoder.ConvLayout | xd.c:17-76 | conv returns d+83, keeps the buffer length, changes nothing outside the cells it writes, and stores the reference line in all of them |
| Encoder.ConvLine | xd.c:17-76 | for d <= 14, the buffer after conv is the old buffer with the reference line placed at the destination |
| Encoder.ConvSkipsCell | xd.c:56-57 | for d = 15, line offset 16 keeps the buffer's old byte (see Findings) |
| Encoder.ConvSkipsCellExample | xd.c:56-57 | for d = 15 and a buffer of 'A's, the line shows 'A' where the reference line has a space |
| Encoder.ConvPaddedLine | xd.c:17-76 | conv with both separating spaces written places exactly the reference line, for every d < 16 |
| Encoder.ConvPaddedIsConv | xd.c:17-76 | for d <= 14 the corrected conv is conv itself, so for `cols = 12` nothing changes |
| Patcher.Patched | xd.c:85-90 | the buffer after patch, described as a whole: base[4i], base[4i+1] and base[64+i] blank for i in rem..15, with base = tail-81, every other byte kept |
| Patcher.ClearedStep | xd.c:86-90 | one turn of the patch loop blanks exactly base[4i], base[4i+1] and base[64+i] more |
| Patcher.Patch | xd.c:79-92 | patch(rem, tail) blanks base[4i], base[4i+1] and base[64+i] for i in rem..15, with base = tail-81, and changes no other byte |
| Patcher.PatchIdempotent | xd.c:85-90 | patching twice is patching once |
| Patcher.PatchFullBlock | xd.c:86 | with rem >= 16 the loop does not run and patch changes nothing |
| Patcher.PatchLineCell | xd.c:85-90 | each cell of a full line, patched to rem bytes, is the cell of the line of the first rem bytes |
| Patcher.PatchLine | xd.c:85-90 | the reference line of the full block, which conv writes for d <= 14 (`ConvLine`), followed by patch(rem) at the line end, is the reference line of the first rem bytes of the block |
| Patcher.PatchForgetsOverread | xd.c:85-90 | after patch the line depends only on the first rem bytes, so the bytes conv over-read leave no trace |
| Driver.Advance | xd.c:106 | `ofs += 16` on a `size_t`: the sum modulo 2^64 |
| Driver.StrideIsProduct | xd.c:105-107 | the output position after k lines, counted line by line, is (d + 83) * k |
| Driver.FlattenAt | xd.c:105-107 | in lines of equal length n written one after another, line k sits at n*k .. n*(k+1) |
| Driver.DumpLength | xd.c:105-107 | a chunk's dump has one line of d+83 bytes per started block, ceil(len / 16) lines in all |
| Driver.ChunkLength | xd.c:105-107 | the block loop writes (d + 83) * Lines(len) bytes for a chunk, and Lines(len) is ceil(len / 16): 16 * Lines(len) covers len with less than one block to spare |
| Driver.DumpLine | xd.c:105-107 | line k of the dump sits at (d+83)*k and is the reference line of block k at offset ofs + 16k |
| Driver.DumpSnoc | xd.c:105-111 | a dump is the dump of its whole blocks followed by the line of its last, possibly short, block |
| Driver.AdvanceAdvance | xd.c:106 | advancing the wrapped offset twice is advancing it by the sum |
| Driver.DumpOffset | xd.c:106 | the offset field of line k holds the d digits of ofs + 16k, wrapped like `size_t` |
| Driver.OffsetDigits | xd.c:101-106 | those digits read back as ofs + 16k modulo 16^d, because the 2^64 wrap never shows in 16 or fewer digits |
| Driver.BlocksDump | xd.c:105-107 | the lines of whole blocks written one after another are the dump of those bytes |
| Driver.ConvBlock | xd.c:106 | one call of the corrected conv in the loop places the line of block i at p and returns d+83; for d <= 14 its result is exactly that of conv as written |
| Driver.EncodeBlocks | xd.c:105-107 | the loop runs ceil(len / 16) times, writes (d+83) per block, and ends with the offset advanced by 16 per block; the buffer holds the dump of those whole blocks and is unchanged past them |
| Driver.PatchLast | xd.c:109-110 | patching the last full line to rem bytes makes it the line of the short block |
| Driver.PatchStep | xd.c:109-111 | after the loop, patch(len % 16) turns the dump of the whole blocks into the dump of exactly len bytes, and writes nothing past the end |
| Driver.EncodeChunk | xd.c:104-111 | one chunk writes exactly the dump of its len bytes: (d+83) * ceil(len / 16) bytes, line k at offset ofs0 + 16k, nothing past the end, and the offset left at ofs0 + 16 * ceil(len / 16) |

## Left out

- Reading and writing are not modelled. This covers `fopen`, `fdopen`, `fread`, `fwrite`, `fflush` and `fclose` (xd.c:100-103, 113-117). The `feof` loop over chunks is left out for the same reason. `EncodeChunk` takes one chunk as a sequence and returns the offset the next chunk starts from.
- `malloc` and the 256-byte margins (xd.c:96-98) are not modelled. The model instead requires the input to hold at least 16 * ceil(len / 16) bytes, because conv reads whole blocks. The bytes past `len` are arbitrary. `PatchForgetsOverread` shows that they do not reach the output.
- The `fprintf` of `rem` to stderr in `patch` (xd.c:84) is not modelled, because it writes only to the error stream.
- The 16-byte alignment attributes of the tables (xd.c:24, 28) are not modelled. Aligned and unaligned loads give the same lanes.
- `main`'s `cols = 12` (xd.c:96) is not fixed in the model. Every `d < 16` is covered instead, and `ConvPaddedIsConv` shows that the correction below does not change `d = 12`.
- `d = 16` is not modelled. The comment on `addr_digits` (xd.c:21) excludes it.
- Driver.ConvBlock: it calls the corrected `ConvPadded`, so its contract describes `conv` as intended. At `d = 15` the source's `conv` leaves line offset 16 as it was, while `ConvBlock` writes a space there. For every `d <= 14`, including `main`'s 12, its second ensures states that its result is exactly that of `Conv`.
- Driver.EncodeBlocks: it builds on `ConvBlock`, so at `d = 15` its dump has the intended space at line offset 16, where the source leaves the old byte. It agrees with the source for every `d <= 14`.
- Driver.EncodeChunk: it builds on `EncodeBlocks`, with the same difference at `d = 15` and the same agreement for every `d <= 14`.

## Findings

| source | as written | input that shows it | evidently intended | confidence | as-written member | corrected member |
|---|---|---|---|---|---|---|
| xd.c:52-57 | with `addr_digits = 15`, the 16-byte offset store covers line offsets 0..15, then `p += 17` skips offset 16, which no later store writes | `d = 15`, any offset and block, output buffer holding 'A' at line offset 16: the line shows 'A' where the second separating space belongs | the offset field followed by two spaces for every `addr_digits` below 16, as the comment on the parameter allows | not executed; only reachable when `cols` is changed from 12 | Encoder.ConvSkipsCellExample | Encoder.ConvPaddedLine |

=== FILE: arith.dfy ===
/** Natural-number powers, division facts, and integers held in a byte. */
module Arith {

  /** b to the n-th power. */
  function Pow(b: nat, n: nat): (r: nat)
    ensures b > 0 ==> r > 0
  {
    if n == 0 then 1 else b * Pow(b, n - 1)
  }

  lemma MulDistrib(x: int, y: int, z: int)
    ensures x * (y + z) == x * y + x * z
  {}

  lemma MulAssoc(x: int, y: int, z: int)
    ensures x * (y * z) == (x * y) * z
  {}

  lemma MulMono(x: nat, y: int, z: int)
    requires y <= z
    ensures x * y <= x * z
  {}

  lemma DivUnique(a: int, m: int, q: int, r: int)
    requires m > 0 && a == m * q + r && 0 <= r < m
    ensures a / m == q && a % m == r
  {
    var q', r' := a / m, a % m;
    assert m * q + r == m * q' + r';
    if q > q' {
      MulMono(m, 1, q - q');
      MulDistrib(m, q', q - q');
    } else if q < q' {
      MulMono(m, 1, q' - q);
      MulDistrib(m, q, q' - q);
    }
  }

  /** The residue modulo b*c splits into a residue modulo b and a digit below c. */
  lemma ModMul(a: nat, b: nat, c: nat)
    requires b > 0 && c > 0
    ensures a % (b * c) == b * ((a / b) % c) + a % b
  {
    var q, r := a / b, a % b;
    var q2, r2 := q / c, q % c;
    assert a == b * c * q2 + (b * r2 + r) by {
      MulDistrib(b, c * q2, r2);
      MulAssoc(b, c, q2);
    }
    assert 0 <= b * r2 + r < b * c by {
      MulMono(b, r2, c - 1);
      MulDistrib(b, c, -1);
    }
    DivUnique(a, b * c, q2, b * r2 + r);
  }

  /** Adding to a residue and reducing again is reducing the sum. */
  lemma ModAdd(x: nat, y: nat, m: nat)
    requires m > 0
    ensures ((x % m) + y) % m == (x + y) % m
  {
    var q, r := x / m, x % m + y;
    assert x + y == m * q + r;
    assert r == m * (r / m) + r % m;
    MulDistrib(m, q, r / m);
    DivUnique(x + y, m, q + r / m, r % m);
  }

  /** A residue modulo a multiple of m, reduced modulo m, is the residue modulo m. */
  lemma ModMod(x: nat, a: nat, b: nat, m: nat)
    requires a > 0 && b > 0 && m == a * b
    ensures (x % m) % a == x % a
  {
    ModMul(x, a, b);
    DivUnique(x % m, a, (x / a) % b, x % a);
  }

  lemma {:induction false} PowAdd(b: nat, m: nat, n: nat)
    ensures Pow(b, m + n) == Pow(b, m) * Pow(b, n)
  {
    if m > 0 {
      PowAdd(b, m - 1, n);
      MulAssoc(b, Pow(b, m - 1), Pow(b, n));
    }
  }

  /**
   * The byte holding an integer below 256, counted up one at a time so that
   * its value is established by induction rather than by bit-blasting.
   */
  function ToByte(n: nat): bv8
    requires n < 256
  {
    if n == 0 then 0 else ToByte(n - 1) + 1
  }

  /** ToByte keeps the value. */
  lemma {:induction false} ToByteValue(n: nat)
    requires n < 256
    ensures ToByte(n) as int == n
  {
    if n > 0 {
      ToByteValue(n - 1);
      ByteSucc(ToByte(n - 1));
    }
  }

  /** A byte read as an integer and stored back is the same byte. */
  lemma {:induction false} IntRoundTrip(b: bv8)
    ensures ToByte(b as int) == b
    decreases b as int
  {
    if b != 0 {
      BytePred(b);
      IntRoundTrip(b - 1);
    }
  }

  lemma ByteSucc(b: bv8)
    requires b < 0xff
    ensures (b + 1) as int == b as int + 1
  {}

  lemma BytePred(b: bv8)
    requires b != 0
    ensures (b - 1) as int == b as int - 1
  {}
}

=== FILE: driver.dfy ===
/**
 * The per-chunk loop of `main`: one conv per 16-byte block of the chunk, the
 * offset advancing by 16 each time, and one patch after a short last block.
 * The whole output of a chunk is described by `Dump`, line by line.
 */
module Driver {
  import opened Arith
  import opened Lanes
  import opened Text
  import opened Layout
  import opened Encoder
  import opened Patcher

  /** 2^64: `size_t` arithmetic wraps modulo this. */
  const WORD: nat := 0x1_0000_0000_0000_0000

  /** The number of lines a chunk of len bytes takes: one per started block of 16. */
  function Lines(len: nat): nat
  {
    (len + 15) / 16
  }

  /** The offset n bytes further on, wrapping like `size_t`. */
  function Advance(ofs: U64, n: nat): U64
  {
    (ofs + n) % WORD
  }

  /** Block k of the data: bytes 16k .. 16k+15, as many of them as there are. */
  function Block(data: seq<bv8>, k: nat): (b: seq<bv8>)
    requires 16 * k < |data|
    ensures 0 < |b| <= 16
  {
    if 16 * k + 16 <= |data| then data[16 * k .. 16 * k + 16] else data[16 * k..]
  }

  /** The lines of the dump of data starting at offset ofs: line k shows block k at offset ofs + 16k. */
  function DumpLines(ofs: U64, data: seq<bv8>, d: nat): (ls: seq<seq<bv8>>)
    ensures |ls| == Lines(|data|)
  {
    seq(Lines(|data|), k requires 0 <= k < Lines(|data|) => Line(Advance(ofs, 16 * k), Block(data, k), d))
  }

  /** The lines one after the other. */
  function Flatten(ls: seq<seq<bv8>>): seq<bv8>
  {
    if |ls| == 0 then [] else Flatten(ls[..|ls| - 1]) + ls[|ls| - 1]
  }

  /** The dump of data starting at offset ofs. */
  function Dump(ofs: U64, data: seq<bv8>, d: nat): seq<bv8>
  {
    Flatten(DumpLines(ofs, data, d))
  }

  // ---- the shape of a dump -------------------------------------------------------

  /** n * k, counted out as k strides of n. */
  function Stride(n: nat, k: nat): nat
  {
    if k == 0 then 0 else Stride(n, k - 1) + n
  }

  lemma {:induction false} StrideIsProduct(n: nat, k: nat)
    ensures Stride(n, k) == n * k
  {
    if k > 0 {
      StrideIsProduct(n, k - 1);
      MulDistrib(n, k - 1, 1);
    }
  }

  lemma {:induction false} StrideMono(n: nat, j: nat, k: nat)
    requires j <= k
    ensures Stride(n, j) <= Stride(n, k)
    decreases k
  {
    if j < k {
      StrideMono(n, j, k - 1);
    }
  }

  /** Every line has length n. */
  predicate Uniform(ls: seq<seq<bv8>>, n: nat)
  {
    forall i :: 0 <= i < |ls| ==> |ls[i]| == n
  }

  lemma {:induction false} FlattenLength(ls: seq<seq<bv8>>, n: nat)
    requires Uniform(ls, n)
    ensures |Flatten(ls)| == Stride(n, |ls|)
  {
    if |ls| > 0 {
      FlattenLength(ls[..|ls| - 1], n);
    }
  }

  /** A slice past the first part of a concatenation is a slice of the second. */
  lemma SliceAfter(a: seq<bv8>, b: seq<bv8>, lo: nat, hi: nat)
    requires |a| <= lo <= hi <= |a| + |b|
    ensures (a + b)[lo..hi] == b[lo - |a| .. hi - |a|]
  {}

  /** Line k of lines of length n sits at Stride(n, k) in their concatenation. */
  lemma {:induction false} FlattenAt(ls: seq<seq<bv8>>, n: nat, k: nat)
    requires Uniform(ls, n) && k < |ls|
    ensures Stride(n, k + 1) <= |Flatten(ls)|
    ensures Flatten(ls)[Stride(n, k) .. Stride(n, k + 1)] == ls[k]
    decreases |ls|
  {
    var init := ls[..|ls| - 1];
    var lo, hi := Stride(n, k), Stride(n, k + 1);
    assert hi == lo + n;
    FlattenLength(init, n);
    if k == |ls| - 1 {
      SliceAfter(Flatten(init), ls[k], lo, hi);
    } else {
      FlattenAt(init, n, k);
      assert (Flatten(init) + ls[|ls| - 1])[lo..hi] == Flatten(init)[lo..hi];
    }
  }

  /** A dump has one line of d + 83 bytes per started block. */
  lemma DumpLength(ofs: U64, data: seq<bv8>, d: nat)
    ensures |Dump(ofs, data, d)| == Stride(d + 83, Lines(|data|))
  {
    FlattenLength(DumpLines(ofs, data, d), d + 83);
  }

  /**
   * The bytes the block loop writes for a chunk of len bytes: d + 83 for each
   * of the ceil(len / 16) blocks it converts.
   */
  lemma ChunkLength(len: nat, d: nat)
    ensures Stride(d + 83, Lines(len)) == (d + 83) * Lines(len)
    ensures len <= 16 * Lines(len) < len + 16
  {
    StrideIsProduct(d + 83, Lines(len));
  }

  /**
   * Line k of a dump sits at (d+83)*k, carries offset ofs + 16k and shows
   * block k of the data.
   */
  lemma DumpLine(ofs: U64, data: seq<bv8>, d: nat, k: nat)
    requires 16 * k < |data|
    ensures Stride(d + 83, k + 1) <= |Dump(ofs, data, d)|
    ensures Dump(ofs, data, d)[Stride(d + 83, k) .. Stride(d + 83, k + 1)] == Line(Advance(ofs, 16 * k), Block(data, k), d)
  {
    FlattenAt(DumpLines(ofs, data, d), d + 83, k);
  }

  /** Advancing twice is advancing by the sum. */
  lemma AdvanceAdvance(ofs: U64, m: nat, n: nat)
    ensures Advance(Advance(ofs, m), n) == Advance(ofs, m + n)
  {
    ModAdd(ofs + m, n, WORD);
  }

  /** A dump is the dump of its whole blocks followed by the line of its last block. */
  lemma DumpSnoc(ofs: U64, data: seq<bv8>, j: nat, d: nat)
    requires j % 16 == 0 && j < |data| <= j + 16
    ensures |Dump(ofs, data[..j], d)| == Stride(d + 83, j / 16)
    ensures Dump(ofs, data, d) == Dump(ofs, data[..j], d) + Line(Advance(ofs, j), data[j..], d)
  {
    var ls, init := DumpLines(ofs, data, d), DumpLines(ofs, data[..j], d);
    assert |ls| == j / 16 + 1 && |init| == j / 16;
    forall k | 0 <= k < j / 16
      ensures ls[k] == init[k]
    {
      assert Block(data, k) == Block(data[..j], k);
    }
    assert ls[..|ls| - 1] == init;
    assert Block(data, j / 16) == data[j..];
    DumpLength(ofs, data[..j], d);
  }

  /** The offset field of line k holds the d hex digits of the offset ofs + 16k, wrapped like `size_t`. */
  lemma DumpOffset(ofs: U64, data: seq<bv8>, d: nat, k: nat)
    requires d <= 16 && 16 * k < |data|
    ensures Stride(d + 83, k) + d <= |Dump(ofs, data, d)|
    ensures Dump(ofs, data, d)[Stride(d + 83, k) .. Stride(d + 83, k) + d] == HexOf(Advance(ofs, 16 * k), d)
  {
    DumpLine(ofs, data, d, k);
    FieldOf(Dump(ofs, data, d), Stride(d + 83, k), Stride(d + 83, k + 1), Line(Advance(ofs, 16 * k), Block(data, k), d), d);
    LineHead(Advance(ofs, 16 * k), Block(data, k), d);
  }

  /**
   * The digits of the offset n bytes on read back as ofs + n modulo 16^d:
   * the wrap of `size_t` never shows in the d <= 16 digits.
   */
  lemma OffsetDigits(ofs: U64, n: nat, d: nat)
    requires d <= 16
    ensures ParseHex(HexOf(Advance(ofs, n), d)) == Some((ofs + n) % Pow(16, d))
  {
    ParseHexOf(Advance(ofs, n), d);
    AdvanceDigits(ofs, n, d);
  }

  /** The first n bytes of a line found at lo are the n bytes at lo. */
  lemma FieldOf(s: seq<bv8>, lo: nat, hi: nat, line: seq<bv8>, n: nat)
    requires lo <= hi <= |s| && s[lo..hi] == line && n <= |line|
    ensures lo + n <= |s| && s[lo..lo + n] == line[..n]
  {
    SlicePrefix(s, lo, hi, n);
  }

  lemma SlicePrefix(s: seq<bv8>, lo: nat, hi: nat, n: nat)
    requires lo + n <= hi <= |s|
    ensures s[lo..hi][..n] == s[lo..lo + n]
  {}

  /** The wrap of `size_t` does not reach the d <= 16 digits shown. */
  lemma AdvanceDigits(ofs: U64, n: nat, d: nat)
    requires d <= 16
    ensures Advance(ofs, n) % Pow(16, d) == (ofs + n) % Pow(16, d)
  {
    WordResidue(ofs + n, d);
    assert Advance(ofs, n) == (ofs + n) % WORD;
  }

  lemma WordResidue(x: nat, d: nat)
    requires d <= 16
    ensures (x % WORD) % Pow(16, d) == x % Pow(16, d)
  {
    WordDigits(d);
    ModMod(x, Pow(16, d), Pow(16, 16 - d), WORD);
  }

  /** 16^d divides 2^64 for d up to 16. */
  lemma WordDigits(d: nat)
    requires d <= 16
    ensures WORD == Pow(16, d) * Pow(16, 16 - d)
  {
    PowAdd(16, d, 16 - d);
    PowAdd(16, 8, 8);
    PowAdd(16, 4, 4);
    PowAdd(16, 2, 2);
    PowAdd(16, 1, 1);
    assert Pow(16, 1) == 16;
  }

  // ---- the loop ----------------------------------------------------------------

  /** The block loop has room for the line of block k. */
  lemma LoopRoom(d: nat, k: nat, len: nat)
    requires 16 * k < len
    ensures 16 * k + 16 <= 16 * Lines(len)
    ensures Stride(d + 83, k) + d + 83 <= Stride(d + 83, Lines(len))
  {
    StrideMono(d + 83, k + 1, Lines(len));
  }

  /** Where the block loop stops: one full block per line. */
  lemma LoopEnd(k: nat, len: nat)
    requires len <= 16 * k <= 16 * Lines(len)
    ensures k == Lines(len)
  {}

  /**
   * The block loop of main for one chunk of len bytes read into input, with
   * d offset digits: conv for each block at i = 0, 16, ... below len, the
   * offset advancing by 16 after each. conv reads whole blocks, so input
   * holds at least 16 * Lines(len) bytes; those past len are whatever the
   * buffer held. The output takes Stride(d + 83, Lines(len)) bytes, which is
   * (d + 83) * ceil(len / 16) by ChunkLength.
   */
  method EncodeBlocks(ofs0: U64, input: seq<bv8>, len: nat, out: seq<bv8>, d: nat)
    returns (buf: seq<bv8>, p: nat, ofs: U64, i: nat)
    requires d < 16 && 16 * Lines(len) <= |input|
    requires Stride(d + 83, Lines(len)) <= |out|
    ensures i == 16 * Lines(len) && p == Stride(d + 83, Lines(len))
    ensures ofs == Advance(ofs0, i)
    ensures |buf| == |out| && buf[p..] == out[p..]
    ensures buf[..p] == Dump(ofs0, input[..i], d)
  {
    buf, p, ofs, i := out, 0, ofs0, 0;
    ghost var k: nat := 0;
    while i < len
      invariant i == 16 * k <= 16 * Lines(len)
      invariant p == Stride(d + 83, k) <= Stride(d + 83, Lines(len))
      invariant ofs == Advance(ofs0, i)
      invariant Holds(buf, out, p, Blocks(ofs0, input, i, d))
    {
      LoopRoom(d, k, len);
      var b, n := ConvBlock(ofs, input, i, buf, p, d);
      ChunkCount(ofs0, len, d, i, k, p, p + n);
      NextBlock(ofs0, input, out, buf, b, d, i, p, ofs, Line(ofs, input[i..i + 16], d));
      buf, p, ofs := b, p + n, Advance(ofs, 16);
      i, k := i + 16, k + 1;
    }
    BlocksDone(ofs0, input, len, out, buf, d, i, k, p);
  }

  /** Where the block loop stops, the lines written are the dump of the whole blocks. */
  lemma BlocksDone(ofs0: U64, input: seq<bv8>, len: nat, out: seq<bv8>, buf: seq<bv8>, d: nat, i: nat, k: nat, p: nat)
    requires 16 * Lines(len) <= |input|
    requires len <= i == 16 * k <= 16 * Lines(len) && i % 16 == 0
    requires Holds(buf, out, p, Blocks(ofs0, input, i, d))
    ensures k == Lines(len) && i == 16 * Lines(len)
    ensures |buf| == |out| && buf[p..] == out[p..]
    ensures buf[..p] == Dump(ofs0, input[..i], d)
  {
    LoopEnd(k, len);
    BlocksDump(ofs0, input, i, d);
  }

  /** The lines of the whole blocks in input[..i], written block after block as the block loop does. */
  function Blocks(ofs0: U64, input: seq<bv8>, i: nat, d: nat): seq<bv8>
    requires i % 16 == 0 && i <= |input|
  {
    if i == 0 then [] else Blocks(ofs0, input, i - 16, d) + Line(Advance(ofs0, i - 16), input[i - 16 .. i], d)
  }

  /** Written block after block, whole blocks make their dump. */
  lemma {:induction false} BlocksDump(ofs0: U64, input: seq<bv8>, i: nat, d: nat)
    requires i % 16 == 0 && i <= |input|
    ensures Blocks(ofs0, input, i, d) == Dump(ofs0, input[..i], d)
  {
    if i == 0 {
      assert |DumpLines(ofs0, input[..0], d)| == 0;
    } else {
      BlocksDump(ofs0, input, i - 16, d);
      BlocksDumpStep(ofs0, input, i, d);
    }
  }

  /** One more whole block adds its line to both sides. */
  lemma BlocksDumpStep(ofs0: U64, input: seq<bv8>, i: nat, d: nat)
    requires i % 16 == 0 && 16 <= i <= |input|
    requires Blocks(ofs0, input, i - 16, d) == Dump(ofs0, input[..i - 16], d)
    ensures Blocks(ofs0, input, i, d) == Dump(ofs0, input[..i], d)
  {
    var line := Line(Advance(ofs0, i - 16), input[i - 16 .. i], d);
    BlocksSnoc(ofs0, input, i, d, line);
    DumpPrefixSnoc(ofs0, input, i, i - 16, d);
    Rejoin(Blocks(ofs0, input, i, d), Blocks(ofs0, input, i - 16, d), Dump(ofs0, input[..i - 16], d), line, Dump(ofs0, input[..i], d));
  }

  lemma BlocksSnoc(ofs0: U64, input: seq<bv8>, i: nat, d: nat, line: seq<bv8>)
    requires i % 16 == 0 && 16 <= i <= |input|
    requires line == Line(Advance(ofs0, i - 16), input[i - 16 .. i], d)
    ensures Blocks(ofs0, input, i, d) == Blocks(ofs0, input, i - 16, d) + line
  {}

  /** Equal beginnings extended by the same line stay equal. */
  lemma Rejoin(a: seq<bv8>, b: seq<bv8>, c: seq<bv8>, line: seq<bv8>, e: seq<bv8>)
    requires a == b + line && b == c && e == c + line
    ensures a == e
  {}

  /** The first p bytes of buf are dump; from p on, buf is still out. */
  predicate Holds(buf: seq<bv8>, out: seq<bv8>, p: nat, dump: seq<bv8>)
  {
    p <= |buf| == |out| && buf[p..] == out[p..] && buf[..p] == dump
  }

  /**
   * One call of conv in the block loop: it writes the line of the block at p.
   * It is the corrected conv, which is conv itself for d <= 14.
   */
  method ConvBlock(ofs: U64, input: seq<bv8>, i: nat, buf: seq<bv8>, p: nat, d: nat) returns (b: seq<bv8>, n: nat)
    requires d < 16 && i + 16 <= |input| && p + d + 83 <= |buf|
    ensures n == d + 83 && b == Placed(buf, p, Line(ofs, input[i..i + 16], d))
    ensures d <= 14 ==> (b, n) == Conv(ofs, input, i, buf, p, d)
  {
    ConvPaddedLine(ofs, input, i, buf, p, d);
    if d <= 14 {
      ConvPaddedIsConv(ofs, input, i, buf, p, d);
    }
    var r := ConvPadded(ofs, input, i, buf, p, d);
    b, n := r.0, r.1;
  }

  /**
   * The per-chunk work of main: the block loop, then patch(len % 16) at the
   * end of the output when the last block is short. It writes the dump of the
   * chunk, Stride(d + 83, Lines(len)) bytes, and nothing past it; by
   * ChunkLength that is (d + 83) * ceil(len / 16).
   */
  method EncodeChunk(ofs0: U64, input: seq<bv8>, len: nat, out: seq<bv8>, d: nat)
    returns (buf: seq<bv8>, p: nat, ofs: U64)
    requires d < 16
    requires len <= |input| && 16 * Lines(len) <= |input|
    requires Stride(d + 83, Lines(len)) <= |out|
    ensures p == Stride(d + 83, Lines(len))
    ensures ofs == Advance(ofs0, 16 * Lines(len))
    ensures |buf| == |out| && buf[p..] == out[p..]
    ensures buf[..p] == Dump(ofs0, input[..len], d)
  {
    var i;
    buf, p, ofs, i := EncodeBlocks(ofs0, input, len, out, d);
    if len % 16 != 0 {
      PatchStep(ofs0, input, len, out, buf, d, i, p);
      buf := Patch(len % 16, buf, p);
    } else {
      WholeBlocks(len);
      assert input[..i] == input[..len];
    }
  }

  /** A chunk of whole blocks has one line per block. */
  lemma WholeBlocks(len: nat)
    requires len % 16 == 0
    ensures 16 * Lines(len) == len
  {
    DivUnique(len + 15, 16, len / 16, 15);
  }

  /** The line of block i placed right after the lines before it extends them by one line. */
  lemma NextBlock(ofs0: U64, input: seq<bv8>, out: seq<bv8>, buf: seq<bv8>, b: seq<bv8>, d: nat, i: nat, p: nat, ofs: U64, line: seq<bv8>)
    requires i % 16 == 0 && i + 16 <= |input| && ofs == Advance(ofs0, i)
    requires line == Line(ofs, input[i..i + 16], d) && p + |line| <= |buf|
    requires b == Placed(buf, p, line)
    requires Holds(buf, out, p, Blocks(ofs0, input, i, d))
    ensures Holds(b, out, p + |line|, Blocks(ofs0, input, i + 16, d))
  {
    BlocksSnoc(ofs0, input, i + 16, d, line);
    Appended(buf, out, p, p + |line|, line, Blocks(ofs0, input, i, d), Blocks(ofs0, input, i + 16, d));
  }

  /** The arithmetic of one turn of the block loop. */
  lemma ChunkCount(ofs0: U64, len: nat, d: nat, i: nat, k: nat, p: nat, q: nat)
    requires i == 16 * k < len && p == Stride(d + 83, k) && q == p + d + 83
    ensures i + 16 == 16 * (k + 1) <= 16 * Lines(len)
    ensures q == Stride(d + 83, k + 1) <= Stride(d + 83, Lines(len))
    ensures Advance(Advance(ofs0, i), 16) == Advance(ofs0, i + 16)
  {
    LoopRoom(d, k, len);
    AdvanceAdvance(ofs0, i, 16);
  }

  /** Placing a line right after a prefix extends the prefix by the line. */
  lemma Appended(buf: seq<bv8>, out: seq<bv8>, p: nat, q: nat, line: seq<bv8>, head: seq<bv8>, next: seq<bv8>)
    requires q == p + |line| <= |buf| && Holds(buf, out, p, head) && next == head + line
    ensures Holds(Placed(buf, p, line), out, q, next)
  {
    PlacedSplit(buf, p, q, line);
    assert buf[q..] == buf[p..][q - p..];
  }

  /**
   * patch(len % 16) with tail p, after the loop has left the dump of the
   * i = 16 * Lines(len) bytes of whole blocks in buf[..p], turns the last line
   * into the line of the short block and leaves the rest alone.
   */
  lemma PatchStep(ofs0: U64, input: seq<bv8>, len: nat, out: seq<bv8>, buf: seq<bv8>, d: nat, i: nat, p: nat)
    requires len % 16 != 0 && i == 16 * Lines(len) <= |input|
    requires p <= |buf| && |buf| == |out|
    requires buf[p..] == out[p..]
    requires buf[..p] == Dump(ofs0, input[..i], d)
    ensures Patched(buf, p, len % 16)[..p] == Dump(ofs0, input[..len], d)
    ensures Patched(buf, p, len % 16)[p..] == out[p..]
  {
    var j, rem := i - 16, len % 16;
    assert len == j + rem && j % 16 == 0;
    DumpPrefixSnoc(ofs0, input, i, j, d);
    DumpPrefixSnoc(ofs0, input, len, j, d);
    var head, o := Dump(ofs0, input[..j], d), Advance(ofs0, j);
    var full, short := Line(o, input[j..i], d), Line(o, input[j..len], d);
    SliceOfConcat(buf, p, head, full);
    SliceTake(input, j, i, len);
    PatchLast(o, input[j..i], input[j..len], d, buf, |head|, p, rem);
    PatchedTail(buf, out, p, rem, head, full, short);
  }

  lemma SliceTake(s: seq<bv8>, j: nat, i: nat, m: nat)
    requires j <= m <= i <= |s|
    ensures s[j..i][..m - j] == s[j..m]
  {}

  /** What PatchStep concludes, for any lines of equal length. */
  lemma PatchedTail(buf: seq<bv8>, out: seq<bv8>, p: nat, rem: nat, head: seq<bv8>, full: seq<bv8>, short: seq<bv8>)
    requires p <= |buf| == |out| && buf[p..] == out[p..]
    requires buf[..p] == head + full && |short| == |full|
    requires Patched(buf, p, rem) == Placed(buf, |head|, short)
    ensures Patched(buf, p, rem)[..p] == head + short
    ensures Patched(buf, p, rem)[p..] == out[p..]
  {
    PlacedSplit(buf, |head|, p, short);
    assert buf[..|head|] == head;
  }

  /** The dump of the first m bytes is that of the whole blocks before j and the line of the rest. */
  lemma DumpPrefixSnoc(ofs: U64, input: seq<bv8>, m: nat, j: nat, d: nat)
    requires j % 16 == 0 && j < m <= j + 16 && m <= |input|
    ensures |Dump(ofs, input[..j], d)| == Stride(d + 83, j / 16)
    ensures Dump(ofs, input[..m], d) == Dump(ofs, input[..j], d) + Line(Advance(ofs, j), input[j..m], d)
  {
    var s := input[..m];
    DumpSnoc(ofs, s, j, d);
    assert s[..j] == input[..j] && s[j..] == input[j..m];
  }

  lemma SliceOfConcat(buf: seq<bv8>, p: nat, head: seq<bv8>, line: seq<bv8>)
    requires p <= |buf| && buf[..p] == head + line
    ensures |head| + |line| == p && buf[|head|..p] == line
  {
    assert buf[|head|..p] == buf[..p][|head|..];
  }

  lemma PlacedSplit(dst: seq<bv8>, at: nat, tail: nat, line: seq<bv8>)
    requires tail == at + |line| <= |dst|
    ensures Placed(dst, at, line)[..tail] == dst[..at] + line
    ensures Placed(dst, at, line)[tail..] == dst[tail..]
  {}

  /** The line of a block, patched to rem bytes, becomes the line of those bytes. */
  lemma PatchLast(o: U64, block: seq<bv8>, short: seq<bv8>, d: nat, buf: seq<bv8>, at: nat, tail: nat, rem: nat)
    requires |block| == 16 && rem <= 16 && block[..rem] == short
    requires tail == at + d + 83 <= |buf| && buf[at..tail] == Line(o, block, d)
    ensures Patched(buf, tail, rem) == Placed(buf, at, Line(o, short, d))
  {
    assert buf == Placed(buf, at, Line(o, block, d));
    PatchLine(o, block, d, buf, at, rem);
  }
}

=== FILE: encoder.dfy ===
/**
 * The line encoder `conv`: one 16-byte block and its offset become one dump
 * line of d + 83 bytes. `ConvLayout` proves that the vector code stores the
 * line `Layout.Line` describes.
 */
module Encoder {
  import opened Arith
  import opened Lanes
  import opened Text
  import opened Macros
  import opened Layout

  /** Whether conv stores to offset `off` of its line: all of it but 16..d+1. */
  predicate Written(off: int, d: nat)
  {
    0 <= off < d + 83 && !(16 <= off < d + 2)
  }

  // ---- the vectors conv stores ----------------------------------------------

  /** ofsv: the offset digits, reversed into place and followed by spaces. */
  function OffsetVector(ofs: U64, d: nat): Vec
    requires d <= 16
  {
    Finish(Flip(AsciiBase(UnpackNibbleFw(Cvtsi64Si128(ofs))), d))
  }

  /** all: hex cells of bytes 0..3. */
  function HexLowLow(ar: Vec): Vec
  {
    Finish(InterleaveLow(AsciiBase(UnpackNibbleLow(ar))))
  }

  /** alh: hex cells of bytes 4..7. */
  function HexLowHigh(ar: Vec): Vec
  {
    Finish(InterleaveHigh(AsciiBase(UnpackNibbleLow(ar))))
  }

  /** ahl: hex cells of bytes 8..11. */
  function HexHighLow(ar: Vec): Vec
  {
    Finish(InterleaveLow(AsciiBase(UnpackNibbleHigh(ar))))
  }

  /** ahh: hex cells of bytes 12..15. */
  function HexHighHigh(ar: Vec): Vec
  {
    Finish(InterleaveHigh(AsciiBase(UnpackNibbleHigh(ar))))
  }

  /** The 64 bytes the four hex stores write, in order. */
  function HexVectors(ar: Vec): seq<bv8>
  {
    HexLowLow(ar) + HexLowHigh(ar) + HexHighLow(ar) + HexHighHigh(ar)
  }

  /** pv: the sidebar. */
  function AsciiVector(ar: Vec): Vec
  {
    Select(IsAscii(ar), ar, Dots)
  }

  /**
   * conv: format the 16 bytes at src[from..] with offset ofs into dst at `at`;
   * returns the updated buffer and the number of bytes the line takes.
   */
  function Conv(ofs: U64, src: seq<bv8>, from: nat, dst: seq<bv8>, at: nat, d: nat): (r: (seq<bv8>, nat))
    requires d < 16
    requires from + 16 <= |src| && at + d + 83 <= |dst|
    ensures |r.0| == |dst|
    ensures r.1 == d + 83
  {
    var b0 := Store(dst, at, OffsetVector(ofs, d));
    var p := at + d + 2;
    var ar := Load(src, from);
    var b1 := Store(b0, p, HexLowLow(ar));
    var b2 := Store(b1, p + 16, HexLowHigh(ar));
    var b3 := Store(b2, p + 32, HexHighLow(ar));
    var b4 := Store(b3, p + 48, HexHighHigh(ar));
    var b5 := Store(b4, p + 64, AsciiVector(ar));
    var b6 := b5[p + 80 := LF];
    (b6, p + 81 - at)
  }

  // ---- lane contents of the stored vectors ----------------------------------

  /** The low and high nibble of little-endian byte j are nibbles 2j and 2j+1. */
  lemma {:induction false} LeByteNibbles(x: nat, j: nat)
    ensures LeByte(x, j) % 16 == Nibble(x, 2 * j)
    ensures LeByte(x, j) / 16 == Nibble(x, 2 * j + 1)
  {
    if j == 0 {
      assert Nibble(x, 1) == Nibble(x / 16, 0);
    } else {
      LeByteNibbles(x / 256, j - 1);
      assert x / 256 == x / 16 / 16;
      assert Nibble(x, 2 * j) == Nibble(x / 16 / 16, 2 * j - 2);
      assert Nibble(x, 2 * j + 1) == Nibble(x / 16 / 16, 2 * j - 1);
    }
  }

  /** Lane n of the forward-unpacked offset is nibble n of the offset. */
  lemma OffsetNibbles(x: U64)
    ensures forall n :: 0 <= n < 16 ==> UnpackNibbleFw(Cvtsi64Si128(x))[n] == ToByte(Nibble(x, n))
  {
    forall n | 0 <= n < 16
      ensures UnpackNibbleFw(Cvtsi64Si128(x))[n] == ToByte(Nibble(x, n))
    {
      var j := n / 2;
      OffsetNibblePair(x, j);
      assert n == 2 * j || n == 2 * j + 1;
    }
  }

  /** Byte j of the offset yields nibbles 2j and 2j+1. */
  lemma OffsetNibblePair(x: U64, j: nat)
    requires j < 8
    ensures UnpackNibbleFw(Cvtsi64Si128(x))[2 * j] == ToByte(Nibble(x, 2 * j))
    ensures UnpackNibbleFw(Cvtsi64Si128(x))[2 * j + 1] == ToByte(Nibble(x, 2 * j + 1))
  {
    var v := Cvtsi64Si128(x);
    assert v[j] == ToByte(LeByte(x, j));
    LeByteNibbles(x, j);
    ByteNibbles(LeByte(x, j));
    UnpackNibbleFwLane(v, j);
  }

  /** The nibbles of a byte, taken on the byte or on its integer value. */
  lemma ByteNibbles(b: nat)
    requires b < 256
    ensures ToByte(b) & 0x0f == ToByte(b % 16) && ToByte(b) >> 4 == ToByte(b / 16)
  {
    var y := ToByte(b);
    ToByteValue(b);
    ByteBits(y);
    IntRoundTrip(y & 0x0f);
    IntRoundTrip(y >> 4);
  }

  /** The offset vector: the d offset digits, then spaces. */
  lemma OffsetVectorLanes(ofs: U64, d: nat)
    requires d <= 16
    ensures forall k :: 0 <= k < 16 ==> OffsetVector(ofs, d)[k] == if k < d then HexOf(ofs, d)[k] else SP
  {
    var n := UnpackNibbleFw(Cvtsi64Si128(ofs));
    var a := AsciiBase(n);
    OffsetNibbles(ofs);
    AsciiBaseLanes(n);
    FlipLanes(a, d);
    forall k | 0 <= k < 16
      ensures OffsetVector(ofs, d)[k] == if k < d then HexOf(ofs, d)[k] else SP
    {
      assert OffsetVector(ofs, d)[k] == SP + Flip(a, d)[k];
      if k < d {
        var m := d - 1 - k;
        assert n[m] == ToByte(Nibble(ofs, m));
        assert Finish(a)[m] == SP + a[m];
        HexOfDigit(ofs, d, k);
      }
    }
  }

  lemma SpacedLowCell(u: Vec, x: bv8, m: nat, c: nat)
    requires m < 4 && c < 4
    requires u[2 * m] == x >> 4 && u[2 * m + 1] == x & 0x0f
    ensures Finish(InterleaveLow(AsciiBase(u)))[4 * m + c] == HexCell(x, c)
  {
    var a := AsciiBase(u);
    WidenLane(a, m);
    DigitCell(u, 2 * m, x >> 4);
    DigitCell(u, 2 * m + 1, x & 0x0f);
    SpacedCell(a, 2 * m, x, c, InterleaveLow(a), m);
  }

  lemma SpacedHighCell(u: Vec, x: bv8, m: nat, c: nat)
    requires m < 4 && c < 4
    requires u[8 + 2 * m] == x >> 4 && u[9 + 2 * m] == x & 0x0f
    ensures Finish(InterleaveHigh(AsciiBase(u)))[4 * m + c] == HexCell(x, c)
  {
    var a := AsciiBase(u);
    DigitCell(u, 8 + 2 * m, x >> 4);
    DigitCell(u, 9 + 2 * m, x & 0x0f);
    InterleaveHighLane(a, m);
    SpacedCell(a, 8 + 2 * m, x, c, InterleaveHigh(a), m);
  }

  /**
   * One cell: if lanes n, n+1 of a, shifted by ' ', are the digits of byte x
   * and the 32-bit lane m of w widens lanes n, n+1 of a, cell c of w is HexCell(x, c).
   */
  lemma SpacedCell(a: Vec, n: nat, x: bv8, c: nat, w: Vec, m: nat)
    requires n + 1 < 16 && c < 4 && m < 4
    requires SP + a[n] == HexDigit(x >> 4) && SP + a[n + 1] == HexDigit(x & 0x0f)
    requires w[4 * m] == a[n] && w[4 * m + 1] == a[n + 1]
    requires w[4 * m + 2] == 0 && w[4 * m + 3] == 0
    ensures Finish(w)[4 * m + c] == HexCell(x, c)
  {
    FinishLane(w, 4 * m + c);
  }

  lemma FinishLane(w: Vec, k: nat)
    requires k < 16
    ensures Finish(w)[k] == SP + w[k]
  {}

  lemma DigitCell(u: Vec, n: nat, v: bv8)
    requires n < 16 && u[n] == v && v < 16
    ensures SP + AsciiBase(u)[n] == HexDigit(v)
  {
    AsciiBaseLane(u, n);
    FinishLane(AsciiBase(u), n);
  }

  /** Cell c of byte m in all and alh. */
  lemma HexLowCells(ar: Vec, m: nat, c: nat)
    requires m < 4 && c < 4
    ensures HexLowLow(ar)[4 * m + c] == HexCell(ar[m], c)
    ensures HexLowHigh(ar)[4 * m + c] == HexCell(ar[4 + m], c)
  {
    var u := UnpackNibbleLow(ar);
    assert u[2 * m] == ar[m] >> 4 && u[2 * m + 1] == ar[m] & 0x0f &&
      u[2 * (4 + m)] == ar[4 + m] >> 4 && u[2 * (4 + m) + 1] == ar[4 + m] & 0x0f by {
      UnpackNibbleLowLanes(ar);
    }
    QuarterCells(u, ar[m], ar[4 + m], m, c);
  }

  /** Cell c of byte m in ahl and ahh. */
  lemma HexHighCells(ar: Vec, m: nat, c: nat)
    requires m < 4 && c < 4
    ensures HexHighLow(ar)[4 * m + c] == HexCell(ar[8 + m], c)
    ensures HexHighHigh(ar)[4 * m + c] == HexCell(ar[12 + m], c)
  {
    var u := UnpackNibbleHigh(ar);
    assert u[2 * m] == ar[8 + m] >> 4 && u[2 * m + 1] == ar[8 + m] & 0x0f &&
      u[2 * (4 + m)] == ar[12 + m] >> 4 && u[2 * (4 + m) + 1] == ar[12 + m] & 0x0f by {
      UnpackNibbleHighLanes(ar);
    }
    QuarterCells(u, ar[8 + m], ar[12 + m], m, c);
  }

  /** Cell c of byte m of both interleaved halves of a split-nibble vector u. */
  lemma QuarterCells(u: Vec, x: bv8, y: bv8, m: nat, c: nat)
    requires m < 4 && c < 4
    requires u[2 * m] == x >> 4 && u[2 * m + 1] == x & 0x0f
    requires u[2 * (4 + m)] == y >> 4 && u[2 * (4 + m) + 1] == y & 0x0f
    ensures Finish(InterleaveLow(AsciiBase(u)))[4 * m + c] == HexCell(x, c)
    ensures Finish(InterleaveHigh(AsciiBase(u)))[4 * m + c] == HexCell(y, c)
  {
    SpacedLowCell(u, x, m, c);
    assert 8 + 2 * m == 2 * (4 + m);
    SpacedHighCell(u, y, m, c);
  }

  // ---- the line conv writes -------------------------------------------------

  /** Which store of conv leaves its byte at offset o = k - at of the line. */
  lemma ConvStores(ofs: U64, src: seq<bv8>, from: nat, dst: seq<bv8>, at: nat, d: nat, k: nat)
    requires d < 16
    requires from + 16 <= |src| && at + d + 83 <= |dst|
    requires k < |dst|
    ensures var b, o, ar := Conv(ofs, src, from, dst, at, d).0, k - at, Load(src, from);
      && (!Written(o, d) ==> b[k] == dst[k])
      && (0 <= o < d + 2 && o < 16 ==> b[k] == OffsetVector(ofs, d)[o])
      && (d + 2 <= o < d + 18 ==> b[k] == HexLowLow(ar)[o - d - 2])
      && (d + 18 <= o < d + 34 ==> b[k] == HexLowHigh(ar)[o - d - 18])
      && (d + 34 <= o < d + 50 ==> b[k] == HexHighLow(ar)[o - d - 34])
      && (d + 50 <= o < d + 66 ==> b[k] == HexHighHigh(ar)[o - d - 50])
      && (d + 66 <= o < d + 82 ==> b[k] == AsciiVector(ar)[o - d - 66])
      && (o == d + 82 ==> b[k] == LF)
  {
    var ar := Load(src, from);
    var b0 := Store(dst, at, OffsetVector(ofs, d));
    var p := at + d + 2;
    var b1 := Store(b0, p, HexLowLow(ar));
    var b2 := Store(b1, p + 16, HexLowHigh(ar));
    var b3 := Store(b2, p + 32, HexHighLow(ar));
    var b4 := Store(b3, p + 48, HexHighHigh(ar));
    var b5 := Store(b4, p + 64, AsciiVector(ar));
    assert Conv(ofs, src, from, dst, at, d).0 == b5[p + 80 := LF];
  }

  /** Byte k of the buffer after conv: the line where conv stores, the old byte elsewhere. */
  lemma ConvCell(ofs: U64, src: seq<bv8>, from: nat, dst: seq<bv8>, at: nat, d: nat, k: nat)
    requires d < 16
    requires from + 16 <= |src| && at + d + 83 <= |dst|
    requires k < |dst|
    ensures Conv(ofs, src, from, dst, at, d).0[k]
         == if Written(k - at, d) then Line(ofs, Load(src, from), d)[k - at] else dst[k]
  {
    var o := k - at;
    if !Written(o, d) {
      ConvStores(ofs, src, from, dst, at, d, k);
    } else if o < d + 2 {
      ConvOffsetCell(ofs, src, from, dst, at, d, k);
    } else if o < d + 66 {
      ConvHexCell(ofs, src, from, dst, at, d, k);
    } else {
      ConvSideCell(ofs, src, from, dst, at, d, k);
    }
  }

  lemma ConvOffsetCell(ofs: U64, src: seq<bv8>, from: nat, dst: seq<bv8>, at: nat, d: nat, k: nat)
    requires d < 16
    requires from + 16 <= |src| && at + d + 83 <= |dst|
    requires k < |dst|
    requires Written(k - at, d) && k - at < d + 2
    ensures Conv(ofs, src, from, dst, at, d).0[k] == Line(ofs, Load(src, from), d)[k - at]
  {
    ConvStores(ofs, src, from, dst, at, d, k);
    OffsetCell(ofs, Load(src, from), d, k - at);
  }

  lemma ConvHexCell(ofs: U64, src: seq<bv8>, from: nat, dst: seq<bv8>, at: nat, d: nat, k: nat)
    requires d < 16
    requires from + 16 <= |src| && at + d + 83 <= |dst|
    requires k < |dst|
    requires d + 2 <= k - at < d + 66
    ensures Conv(ofs, src, from, dst, at, d).0[k] == Line(ofs, Load(src, from), d)[k - at]
  {
    ConvHexStores(ofs, src, from, dst, at, d, k);
    HexVectorsField(Load(src, from));
    LineHexAt(ofs, Load(src, from), d, k - at);
  }

  /** The byte conv leaves in the hex field is the matching byte of the four hex stores. */
  lemma ConvHexStores(ofs: U64, src: seq<bv8>, from: nat, dst: seq<bv8>, at: nat, d: nat, k: nat)
    requires d < 16
    requires from + 16 <= |src| && at + d + 83 <= |dst|
    requires k < |dst|
    requires d + 2 <= k - at < d + 66
    ensures Conv(ofs, src, from, dst, at, d).0[k] == HexVectors(Load(src, from))[k - at - d - 2]
  {
    var ar := Load(src, from);
    var p := at + d + 2;
    var b0 := Store(dst, at, OffsetVector(ofs, d));
    var b1 := Store(b0, p, HexLowLow(ar));
    var b2 := Store(b1, p + 16, HexLowHigh(ar));
    var b3 := Store(b2, p + 32, HexHighLow(ar));
    var b4 := Store(b3, p + 48, HexHighHigh(ar));
    var b5 := Store(b4, p + 64, AsciiVector(ar));
    assert Conv(ofs, src, from, dst, at, d).0 == b5[p + 80 := LF];
    StoresInOrder(b0, p, HexLowLow(ar), HexLowHigh(ar), HexHighLow(ar), HexHighHigh(ar), k);
  }

  /** Four vectors stored one after the other at p leave their concatenation at p. */
  lemma StoresInOrder(mem: seq<bv8>, p: nat, v0: Vec, v1: Vec, v2: Vec, v3: Vec, k: nat)
    requires p + 64 <= |mem| && p <= k < p + 64
    ensures Store(Store(Store(Store(mem, p, v0), p + 16, v1), p + 32, v2), p + 48, v3)[k] == (v0 + v1 + v2 + v3)[k - p]
  {
  }

  /** The four hex vectors, stored one after the other, are the hex field. */
  lemma HexVectorsField(ar: Vec)
    ensures HexVectors(ar) == HexField(ar)
  {
    HexQuarters(ar);
    Quartered(HexField(ar), HexLowLow(ar), HexLowHigh(ar), HexHighLow(ar), HexHighHigh(ar));
  }

  lemma ConvSideCell(ofs: U64, src: seq<bv8>, from: nat, dst: seq<bv8>, at: nat, d: nat, k: nat)
    requires d < 16
    requires from + 16 <= |src| && at + d + 83 <= |dst|
    requires k < |dst|
    requires d + 66 <= k - at < d + 83
    ensures Conv(ofs, src, from, dst, at, d).0[k] == Line(ofs, Load(src, from), d)[k - at]
  {
    ConvStores(ofs, src, from, dst, at, d, k);
    var o := k - at;
    if o < d + 82 {
      SideCellAt(ofs, Load(src, from), d, o);
    } else {
      LineAt(ofs, Load(src, from), d, o);
    }
  }

  lemma OffsetCell(ofs: U64, ar: Vec, d: nat, o: nat)
    requires d < 16 && o < d + 2 && o < 16
    ensures OffsetVector(ofs, d)[o] == Line(ofs, ar, d)[o]
  {
    OffsetVectorLanes(ofs, d);
    LineAt(ofs, ar, d, o);
  }

  /** The four hex vectors conv stores are the four quarters of the hex field, in order. */
  lemma HexQuarters(ar: Vec)
    ensures HexLowLow(ar) == HexField(ar)[0..16]
    ensures HexLowHigh(ar) == HexField(ar)[16..32]
    ensures HexHighLow(ar) == HexField(ar)[32..48]
    ensures HexHighHigh(ar) == HexField(ar)[48..64]
  {
    HexLowQuarters(ar);
    HexHighQuarters(ar);
  }

  /** all and alh are the first two quarters of the hex field. */
  lemma HexLowQuarters(ar: Vec)
    ensures HexLowLow(ar) == HexField(ar)[0..16]
    ensures HexLowHigh(ar) == HexField(ar)[16..32]
  {
    HexLowCellsAll(ar);
    HexFieldQuarter(HexLowLow(ar), ar, 0);
    HexFieldQuarter(HexLowHigh(ar), ar, 1);
  }

  /** ahl and ahh are the last two quarters of the hex field. */
  lemma HexHighQuarters(ar: Vec)
    ensures HexHighLow(ar) == HexField(ar)[32..48]
    ensures HexHighHigh(ar) == HexField(ar)[48..64]
  {
    HexHighCellsAll(ar);
    HexFieldQuarter(HexHighLow(ar), ar, 2);
    HexFieldQuarter(HexHighHigh(ar), ar, 3);
  }

  /** HexLowCells for every byte and cell at once. */
  lemma HexLowCellsAll(ar: Vec)
    ensures forall m, c | 0 <= m < 4 && 0 <= c < 4 :: HexLowLow(ar)[CellIndex(m, c)] == HexCell(ar[m], c)
    ensures forall m, c | 0 <= m < 4 && 0 <= c < 4 :: HexLowHigh(ar)[CellIndex(m, c)] == HexCell(ar[4 + m], c)
  {
    forall m, c | 0 <= m < 4 && 0 <= c < 4
      ensures HexLowLow(ar)[CellIndex(m, c)] == HexCell(ar[m], c)
      ensures HexLowHigh(ar)[CellIndex(m, c)] == HexCell(ar[4 + m], c)
    {
      HexLowCells(ar, m, c);
    }
  }

  /** HexHighCells for every byte and cell at once. */
  lemma HexHighCellsAll(ar: Vec)
    ensures forall m, c | 0 <= m < 4 && 0 <= c < 4 :: HexHighLow(ar)[CellIndex(m, c)] == HexCell(ar[8 + m], c)
    ensures forall m, c | 0 <= m < 4 && 0 <= c < 4 :: HexHighHigh(ar)[CellIndex(m, c)] == HexCell(ar[12 + m], c)
  {
    forall m, c | 0 <= m < 4 && 0 <= c < 4
      ensures HexHighLow(ar)[CellIndex(m, c)] == HexCell(ar[8 + m], c)
      ensures HexHighHigh(ar)[CellIndex(m, c)] == HexCell(ar[12 + m], c)
    {
      HexHighCells(ar, m, c);
    }
  }

  lemma SideCellAt(ofs: U64, ar: Vec, d: nat, o: nat)
    requires d < 16 && d + 66 <= o < d + 82
    ensures AsciiVector(ar)[o - d - 66] == Line(ofs, ar, d)[o]
  {
    LineAt(ofs, ar, d, o);
    SelectAsciiLanes(ar);
  }

  /**
   * The layout of the line conv writes: it returns d + 83, changes nothing
   * outside dst[at..at+d+83), and stores Line there, except for offsets
   * 16..d+1, which it never writes (a non-empty range only when d = 15).
   */
  lemma ConvLayout(ofs: U64, src: seq<bv8>, from: nat, dst: seq<bv8>, at: nat, d: nat)
    requires d < 16
    requires from + 16 <= |src| && at + d + 83 <= |dst|
    ensures var (buf, n) := Conv(ofs, src, from, dst, at, d);
      && n == d + 83 && |buf| == |dst|
      && (forall k :: 0 <= k < |dst| && !Written(k - at, d) ==> buf[k] == dst[k])
      && (forall k :: 0 <= k < |dst| && Written(k - at, d) ==> buf[k] == Line(ofs, Load(src, from), d)[k - at])
  {
    forall k | 0 <= k < |dst| {
      ConvCell(ofs, src, from, dst, at, d, k);
    }
  }

  /** The buffer with `line` placed at `at` and every other byte as in dst. */
  function Placed(dst: seq<bv8>, at: nat, line: seq<bv8>): (r: seq<bv8>)
    requires at + |line| <= |dst|
    ensures |r| == |dst|
  {
    dst[..at] + line + dst[at + |line|..]
  }

  lemma PlacedAt(dst: seq<bv8>, at: nat, line: seq<bv8>, k: nat)
    requires at + |line| <= |dst| && k < |dst|
    ensures Placed(dst, at, line)[k] == if at <= k < at + |line| then line[k - at] else dst[k]
  {}

  /** With at most 14 offset digits conv writes the whole line and nothing else. */
  lemma ConvLine(ofs: U64, src: seq<bv8>, from: nat, dst: seq<bv8>, at: nat, d: nat)
    requires d <= 14
    requires from + 16 <= |src| && at + d + 83 <= |dst|
    ensures Conv(ofs, src, from, dst, at, d).0 == Placed(dst, at, Line(ofs, Load(src, from), d))
  {
    var buf, line := Conv(ofs, src, from, dst, at, d).0, Line(ofs, Load(src, from), d);
    forall k | 0 <= k < |dst|
      ensures buf[k] == Placed(dst, at, line)[k]
    {
      ConvCell(ofs, src, from, dst, at, d, k);
      PlacedAt(dst, at, line, k);
    }
  }

  // ---- fifteen offset digits -------------------------------------------------

  /**
   * With d = 15 the offset store covers offsets 0..15 and the hex field starts
   * at 17, so offset 16, the second separating space, keeps whatever the
   * buffer held before.
   */
  lemma ConvSkipsCell(ofs: U64, src: seq<bv8>, from: nat, dst: seq<bv8>, at: nat)
    requires from + 16 <= |src| && at + 15 + 83 <= |dst|
    ensures Conv(ofs, src, from, dst, at, 15).0[at + 16] == dst[at + 16]
  {
    ConvStores(ofs, src, from, dst, at, 15, at + 16);
  }

  /** A buffer holding 'A' everywhere shows 'A' where the line has its space. */
  lemma ConvSkipsCellExample()
    ensures var dst, src := seq(98, _ => 0x41 as bv8), seq(16, _ => 0 as bv8);
      Conv(0, src, 0, dst, 0, 15).0[16] == 0x41 != Line(0, Load(src, 0), 15)[16]
  {
    var dst, src := seq(98, _ => 0x41 as bv8), seq(16, _ => 0 as bv8);
    ConvSkipsCell(0, src, 0, dst, 0);
    LineAt(0, Load(src, 0), 15, 16);
  }

  /**
   * conv with the two separating spaces written explicitly, the offset field
   * being followed by "  " for every d below 16 as intended. The two cells
   * are reached by no other store, so writing them last is the same as
   * writing them right after the offset.
   */
  function ConvPadded(ofs: U64, src: seq<bv8>, from: nat, dst: seq<bv8>, at: nat, d: nat): (r: (seq<bv8>, nat))
    requires d < 16
    requires from + 16 <= |src| && at + d + 83 <= |dst|
    ensures r.1 == d + 83
  {
    var (b, n) := Conv(ofs, src, from, dst, at, d);
    (b[at + d := SP][at + d + 1 := SP], n)
  }

  /** The padded conv writes the whole line and nothing else, for every d below 16. */
  lemma ConvPaddedLine(ofs: U64, src: seq<bv8>, from: nat, dst: seq<bv8>, at: nat, d: nat)
    requires d < 16
    requires from + 16 <= |src| && at + d + 83 <= |dst|
    ensures ConvPadded(ofs, src, from, dst, at, d).0 == Placed(dst, at, Line(ofs, Load(src, from), d))
  {
    var buf, line := ConvPadded(ofs, src, from, dst, at, d).0, Line(ofs, Load(src, from), d);
    forall k | 0 <= k < |dst|
      ensures buf[k] == Placed(dst, at, line)[k]
    {
      PlacedAt(dst, at, line, k);
      if k != at + d && k != at + d + 1 {
        ConvCell(ofs, src, from, dst, at, d, k);
      } else {
        LineAt(ofs, Load(src, from), d, k - at);
      }
    }
  }

  /** Below 15 digits the padded conv is conv itself. */
  lemma ConvPaddedIsConv(ofs: U64, src: seq<bv8>, from: nat, dst: seq<bv8>, at: nat, d: nat)
    requires d <= 14
    requires from + 16 <= |src| && at + d + 83 <= |dst|
    ensures ConvPadded(ofs, src, from, dst, at, d) == Conv(ofs, src, from, dst, at, d)
  {
    ConvLine(ofs, src, from, dst, at, d);
    ConvPaddedLine(ofs, src, from, dst, at, d);
  }
}

=== FILE: lanes.dfy ===
/**
 * The SSE intrinsics the line encoder uses, each defined by its lane semantics.
 * A 128-bit register is its 16 byte lanes, lane 0 being the lowest-addressed
 * byte; 16-bit and 32-bit lanes are little-endian groups of 2 and 4 bytes.
 */
module Lanes {
  import opened Arith

  /** One 128-bit register. */
  type Vec = v: seq<bv8> | |v| == 16 witness seq(16, _ => 0)

  /** A 64-bit unsigned machine integer (`size_t`, `long long` bits). */
  type U64 = x: int | 0 <= x < 0x1_0000_0000_0000_0000

  // ---- loads, stores and constants ---------------------------------------

  /** `_mm_loadu_si128` / `_mm_load_si128`: 16 bytes starting at `at`. */
  function Load(mem: seq<bv8>, at: nat): (v: Vec)
    requires at + 16 <= |mem|
  {
    mem[at..at + 16]
  }

  /** `_mm_storeu_si128`: the 16 lanes of `v` replace mem[at..at+16). */
  function Store(mem: seq<bv8>, at: nat, v: Vec): (r: seq<bv8>)
    requires at + 16 <= |mem|
    ensures |r| == |mem|
    ensures forall k :: 0 <= k < |mem| ==> r[k] == if at <= k < at + 16 then v[k - at] else mem[k]
  {
    mem[..at] + v + mem[at + 16..]
  }

  /** `_mm_set1_epi8`: one byte in every lane. */
  function Set1(b: bv8): Vec
  {
    seq(16, _ => b)
  }

  /** `_mm_setzero_si128`. */
  function SetZero(): Vec
  {
    Set1(0)
  }

  /** `_mm_cvtsi64_si128`: the eight little-endian bytes of x, then eight zero lanes. */
  function Cvtsi64Si128(x: U64): Vec
  {
    seq(16, k requires 0 <= k < 16 => if k < 8 then ToByte(LeByte(x, k)) else 0)
  }

  /** Byte j of x counted from the least significant, as an integer. */
  function LeByte(x: nat, j: nat): (r: nat)
    ensures r < 256
  {
    if j == 0 then x % 256 else LeByte(x / 256, j - 1)
  }

  // ---- byte-lane arithmetic and logic ------------------------------------

  /** `_mm_and_si128`. */
  function And(a: Vec, b: Vec): Vec
  {
    seq(16, k requires 0 <= k < 16 => a[k] & b[k])
  }

  /** `_mm_or_si128`. */
  function Or(a: Vec, b: Vec): Vec
  {
    seq(16, k requires 0 <= k < 16 => a[k] | b[k])
  }

  /** `_mm_add_epi8`: lane-wise addition modulo 256. */
  function AddEpi8(a: Vec, b: Vec): Vec
  {
    seq(16, k requires 0 <= k < 16 => a[k] + b[k])
  }

  /** `_mm_sub_epi8`: lane-wise subtraction modulo 256. */
  function SubEpi8(a: Vec, b: Vec): Vec
  {
    seq(16, k requires 0 <= k < 16 => a[k] - b[k])
  }

  /** A byte read as a two's-complement `int8_t`. */
  function Signed(b: bv8): int
  {
    if b < 0x80 then b as int else b as int - 256
  }

  /** `_mm_cmpgt_epi8`: all ones where a > b as signed bytes, else zero. */
  function CmpGtEpi8(a: Vec, b: Vec): Vec
  {
    seq(16, k requires 0 <= k < 16 => if Signed(a[k]) > Signed(b[k]) then 0xff else 0)
  }

  /** `_mm_blendv_epi8(a, b, mask)`: b where the mask lane has bit 7 set, else a. */
  function BlendvEpi8(a: Vec, b: Vec, mask: Vec): Vec
  {
    seq(16, k requires 0 <= k < 16 => if mask[k] & 0x80 != 0 then b[k] else a[k])
  }

  /** `_mm_shuffle_epi8(a, idx)`: zero where the index has bit 7 set, else a[idx & 15]. */
  function ShuffleEpi8(a: Vec, idx: Vec): Vec
  {
    seq(16, k requires 0 <= k < 16 => if idx[k] & 0x80 != 0 then 0 else a[(idx[k] & 0x0f) as int])
  }

  /** `_mm_unpackhi_epi8(a, b)`: the high halves of a and b, interleaved a-first. */
  function UnpackHiEpi8(a: Vec, b: Vec): Vec
  {
    seq(16, k requires 0 <= k < 16 => if k % 2 == 0 then a[8 + k / 2] else b[8 + k / 2])
  }

  /** `_mm_srli_si128(a, n)`: the whole register shifted down by n bytes, zero-filled. */
  function SrliSi128(a: Vec, n: nat): Vec
  {
    seq(16, k requires 0 <= k < 16 => if k + n < 16 then a[k + n] else 0)
  }

  // ---- 16-bit and 32-bit lanes -------------------------------------------

  /** The j-th little-endian 16-bit lane. */
  function Lane16(v: Vec, j: nat): bv16
    requires j < 8
  {
    Lane16Of(v[2 * j], v[2 * j + 1])
  }

  /** The 16-bit lane made of a low and a high byte. */
  function Lane16Of(lo: bv8, hi: bv8): bv16
  {
    (lo as bv16) | ((hi as bv16) << 8)
  }

  /** The register whose 16-bit lanes are w. */
  function FromLanes16(w: seq<bv16>): Vec
    requires |w| == 8
  {
    seq(16, k requires 0 <= k < 16 =>
      if k % 2 == 0 then LowByte(w[k / 2]) else HighByte(w[k / 2]))
  }

  /** The low byte of a 16-bit lane. */
  function LowByte(x: bv16): bv8
  {
    (x & 0xff) as bv8
  }

  /** The high byte of a 16-bit lane. */
  function HighByte(x: bv16): bv8
  {
    (x >> 8) as bv8
  }

  /** Zero-extension of a byte to a 16-bit lane. */
  function Widen8(b: bv8): bv16
  {
    b as bv16
  }

  /** Zero-extension of a 16-bit lane to a 32-bit lane. */
  function Widen16(x: bv16): bv32
  {
    x as bv32
  }

  /** The register whose 32-bit lanes are w. */
  function FromLanes32(w: seq<bv32>): Vec
    requires |w| == 4
  {
    seq(16, k requires 0 <= k < 16 => Byte32(w[k / 4], k % 4))
  }

  /** Byte i (little-endian) of a 32-bit lane. */
  function Byte32(x: bv32, i: nat): bv8
    requires i < 4
  {
    ((x >> (8 * i)) & 0xff) as bv8
  }

  /** A 16-bit lane shifted up by n, bits beyond 16 dropped. */
  function Shl16(x: bv16, n: nat): bv16
    requires n <= 16
  {
    x << n
  }

  /** A 16-bit lane shifted down by n, zero-filled. */
  function Shr16(x: bv16, n: nat): bv16
    requires n <= 16
  {
    x >> n
  }

  /** `_mm_slli_epi16(a, n)`: each 16-bit lane shifted up, bits beyond 16 dropped. */
  function Slli16(a: Vec, n: nat): Vec
    requires n <= 16
  {
    FromLanes16(seq(8, j requires 0 <= j < 8 => Shl16(Lane16(a, j), n)))
  }

  /** `_mm_srli_epi16(a, n)`: each 16-bit lane shifted down, zero-filled. */
  function Srli16(a: Vec, n: nat): Vec
    requires n <= 16
  {
    FromLanes16(seq(8, j requires 0 <= j < 8 => Shr16(Lane16(a, j), n)))
  }

  /** `_mm_cvtepu8_epi16`: the low eight bytes zero-extended to 16-bit lanes. */
  function CvtEpu8Epi16(a: Vec): Vec
  {
    FromLanes16(seq(8, j requires 0 <= j < 8 => Widen8(a[j])))
  }

  /** `_mm_cvtepu16_epi32`: the low four 16-bit lanes zero-extended to 32-bit lanes. */
  function CvtEpu16Epi32(a: Vec): Vec
  {
    FromLanes32(seq(4, m requires 0 <= m < 4 => Widen16(Lane16(a, m))))
  }

  // ---- 16-bit lane views of the byte-defined results ----------------------

  /** Bytes 2j and 2j+1 of a register built from 16-bit lanes are the halves of lane j. */
  lemma FromLanes16Lane(w: seq<bv16>, j: nat)
    requires |w| == 8 && j < 8
    ensures FromLanes16(w)[2 * j] == LowByte(w[j]) && FromLanes16(w)[2 * j + 1] == HighByte(w[j])
  {
    assert (2 * j) / 2 == j && (2 * j) % 2 == 0;
    assert (2 * j + 1) / 2 == j && (2 * j + 1) % 2 == 1;
  }

  /** `_mm_slli_epi16` read back at byte lanes 2j and 2j+1: the shifted 16-bit lane j. */
  lemma Slli16Lane(a: Vec, n: nat, j: nat)
    requires n <= 16 && j < 8
    ensures Slli16(a, n)[2 * j] == LowByte(Shl16(Lane16(a, j), n))
    ensures Slli16(a, n)[2 * j + 1] == HighByte(Shl16(Lane16(a, j), n))
  {
    FromLanes16Lane(seq(8, i requires 0 <= i < 8 => Shl16(Lane16(a, i), n)), j);
  }

  /** `_mm_srli_epi16` read back at byte lanes 2j and 2j+1: the shifted 16-bit lane j. */
  lemma Srli16Lane(a: Vec, n: nat, j: nat)
    requires n <= 16 && j < 8
    ensures Srli16(a, n)[2 * j] == LowByte(Shr16(Lane16(a, j), n))
    ensures Srli16(a, n)[2 * j + 1] == HighByte(Shr16(Lane16(a, j), n))
  {
    FromLanes16Lane(seq(8, i requires 0 <= i < 8 => Shr16(Lane16(a, i), n)), j);
  }

  /** `_mm_cvtepu8_epi16` read back at byte lanes 2j and 2j+1: byte j, then a zero byte. */
  lemma CvtEpu8Epi16Lane(a: Vec, j: nat)
    requires j < 8
    ensures CvtEpu8Epi16(a)[2 * j] == a[j] && CvtEpu8Epi16(a)[2 * j + 1] == 0
  {
    FromLanes16Lane(seq(8, i requires 0 <= i < 8 => Widen8(a[i])), j);
  }

  /** `_mm_cvtepu16_epi32` read back at byte lane 4m+i: byte i of the widened 16-bit lane m. */
  lemma CvtEpu16Epi32Lane(a: Vec, m: nat, i: nat)
    requires m < 4 && i < 4
    ensures CvtEpu16Epi32(a)[4 * m + i] == Byte32(Widen16(Lane16(a, m)), i)
  {
    assert (4 * m + i) / 4 == m && (4 * m + i) % 4 == i;
  }
}

=== FILE: layout.dfy ===
/**
 * The dump line, described cell by cell with no reference to vector lanes:
 * d offset digits, two spaces, four cells per byte (two hex digits and two
 * spaces), a sidebar of printable characters and a newline. Each part reads
 * back to what it shows.
 */
module Layout {
  import opened Arith
  import opened Text

  /** Cell c of the four cells a byte takes in the hex field: two digits, then two spaces. */
  function HexCell(b: bv8, c: nat): bv8
    requires c < 4
  {
    if c == 0 then HexDigit(b >> 4)
    else if c == 1 then HexDigit(b & 0x0f)
    else SP
  }

  /** The 64-cell hex field; the cells of bytes missing from a short block are blank. */
  function HexField(bytes: seq<bv8>): (f: seq<bv8>)
    requires |bytes| <= 16
    ensures |f| == 64
  {
    seq(64, k requires 0 <= k < 64 => if k / 4 < |bytes| then HexCell(bytes[k / 4], k % 4) else SP)
  }

  /** The 16-cell sidebar; the cells of bytes missing from a short block are blank. */
  function Sidebar(bytes: seq<bv8>): (s: seq<bv8>)
    requires |bytes| <= 16
    ensures |s| == 16
  {
    seq(16, i requires 0 <= i < 16 => if i < |bytes| then SideCell(bytes[i]) else SP)
  }

  /**
   * One dump line for up to 16 bytes at offset ofs: d offset digits, two
   * spaces, the hex field, the sidebar and a newline.
   */
  function Line(ofs: nat, bytes: seq<bv8>, d: nat): (l: seq<bv8>)
    requires |bytes| <= 16
    ensures |l| == d + 83
  {
    HexOf(ofs, d) + [SP, SP] + HexField(bytes) + Sidebar(bytes) + [LF]
  }

  // ---- where each part sits ------------------------------------------------

  /** Where each part of Line sits. */
  lemma LineAt(ofs: nat, bytes: seq<bv8>, d: nat, o: nat)
    requires |bytes| <= 16 && o < d + 83
    ensures o < d ==> Line(ofs, bytes, d)[o] == HexOf(ofs, d)[o]
    ensures d <= o < d + 2 ==> Line(ofs, bytes, d)[o] == SP
    ensures d + 2 <= o < d + 66 ==> Line(ofs, bytes, d)[o] == HexField(bytes)[o - d - 2]
    ensures d + 66 <= o < d + 82 ==> Line(ofs, bytes, d)[o] == Sidebar(bytes)[o - d - 66]
    ensures o == d + 82 ==> Line(ofs, bytes, d)[o] == LF
  {}

  lemma LineHexAt(ofs: nat, bytes: seq<bv8>, d: nat, o: nat)
    requires |bytes| <= 16 && d + 2 <= o < d + 66
    ensures Line(ofs, bytes, d)[o] == HexField(bytes)[o - d - 2]
  {
    LineAt(ofs, bytes, d, o);
  }

  /** Cell c of byte 4q+m of the hex field of a full block. */
  lemma HexFieldAt(ar: seq<bv8>, m: nat, c: nat, q: nat)
    requires |ar| == 16 && m < 4 && c < 4 && q < 4
    ensures HexField(ar)[16 * q + 4 * m + c] == HexCell(ar[4 * q + m], c)
  {
    var k := 16 * q + 4 * m + c;
    assert k / 4 == 4 * q + m && k % 4 == c;
  }

  /** Where cell c of byte m sits among the 16 cells of four bytes. */
  function CellIndex(m: nat, c: nat): nat
  {
    4 * m + c
  }

  /** Sixteen cells holding the hex cells of bytes 4q..4q+3 are quarter q of the hex field. */
  lemma HexFieldQuarter(v: seq<bv8>, ar: seq<bv8>, q: nat)
    requires |v| == 16 && |ar| == 16 && q < 4
    requires forall m, c | 0 <= m < 4 && 0 <= c < 4 :: v[CellIndex(m, c)] == HexCell(ar[4 * q + m], c)
    ensures v == HexField(ar)[16 * q..16 * q + 16]
  {
    forall m, c | 0 <= m < 4 && 0 <= c < 4
      ensures v[CellIndex(m, c)] == HexField(ar)[16 * q + CellIndex(m, c)]
    {
      HexFieldAt(ar, m, c, q);
    }
    CellSlice(v, HexField(ar), 16 * q);
  }

  /** Two runs of 16 cells that agree cell by cell, byte by byte, are equal. */
  lemma CellSlice(v: seq<bv8>, f: seq<bv8>, s: nat)
    requires |v| == 16 && s + 16 <= |f|
    requires forall m, c | 0 <= m < 4 && 0 <= c < 4 :: v[CellIndex(m, c)] == f[s + CellIndex(m, c)]
    ensures v == f[s..s + 16]
  {
    forall j | 0 <= j < 16
      ensures v[j] == f[s + j]
    {
      var m, c := j / 4, j % 4;
      assert CellIndex(m, c) == j;
    }
  }

  /** A 64-cell run is the concatenation of its four 16-cell quarters. */
  lemma Quartered(f: seq<bv8>, v0: seq<bv8>, v1: seq<bv8>, v2: seq<bv8>, v3: seq<bv8>)
    requires |f| == 64
    requires v0 == f[0..16] && v1 == f[16..32] && v2 == f[32..48] && v3 == f[48..64]
    ensures v0 + v1 + v2 + v3 == f
  {
    assert f == f[0..16] + f[16..32] + f[32..48] + f[48..64];
  }

  lemma ByteBits(b: bv8)
    ensures (b & 0x0f) as int == b as int % 16 && (b >> 4) as int == b as int / 16
    ensures b & 0x0f < 16 && b >> 4 < 16
  {}

  // ---- reading a line back ---------------------------------------------------

  /** The two hex digits of a byte read back as the byte. */
  lemma HexCellsRoundTrip(b: bv8)
    ensures ParseByte(HexCell(b, 0), HexCell(b, 1)) == Some(b as int)
  {
    ByteBits(b);
    HexDigitValue(b >> 4);
    HexDigitValue(b & 0x0f);
  }

  /** The first d cells of a line are the offset field. */
  lemma LineHead(ofs: nat, bytes: seq<bv8>, d: nat)
    requires |bytes| <= 16
    ensures Line(ofs, bytes, d)[..d] == HexOf(ofs, d)
  {}

  /**
   * The offset field holds the d hex digits of ofs, reading back as ofs
   * modulo 16^d; two spaces follow it and a newline ends the line.
   */
  lemma LineOffset(ofs: nat, bytes: seq<bv8>, d: nat)
    requires |bytes| <= 16
    ensures Line(ofs, bytes, d)[..d] == HexOf(ofs, d)
    ensures ParseHex(Line(ofs, bytes, d)[..d]) == Some(ofs % Pow(16, d))
    ensures Line(ofs, bytes, d)[d] == SP && Line(ofs, bytes, d)[d + 1] == SP
    ensures Line(ofs, bytes, d)[d + 82] == LF
  {
    ParseHexOf(ofs, d);
  }

  /** Cell c of byte i in the hex field of a line. */
  lemma LineHexCell(ofs: nat, bytes: seq<bv8>, d: nat, i: nat, c: nat)
    requires |bytes| <= 16 && i < 16 && c < 4
    ensures Line(ofs, bytes, d)[d + 2 + 4 * i + c] == if i < |bytes| then HexCell(bytes[i], c) else SP
  {
    LineHexAt(ofs, bytes, d, d + 2 + 4 * i + c);
    assert (4 * i + c) / 4 == i && (4 * i + c) % 4 == c;
  }

  /** The two digits of byte i sit at d+2+4i and d+3+4i and read back as the byte. */
  lemma LineByte(ofs: nat, bytes: seq<bv8>, d: nat, i: nat)
    requires |bytes| <= 16 && i < |bytes|
    ensures Line(ofs, bytes, d)[d + 2 + 4 * i] == HexDigit(bytes[i] >> 4)
    ensures Line(ofs, bytes, d)[d + 3 + 4 * i] == HexDigit(bytes[i] & 0x0f)
    ensures ParseByte(Line(ofs, bytes, d)[d + 2 + 4 * i], Line(ofs, bytes, d)[d + 3 + 4 * i])
            == Some(bytes[i] as int)
  {
    LineHexCell(ofs, bytes, d, i, 0);
    LineHexCell(ofs, bytes, d, i, 1);
    HexCellsRoundTrip(bytes[i]);
  }

  /**
   * Two spaces follow the digits of every byte, and a byte missing from a
   * short block leaves its two digit cells blank as well.
   */
  lemma LineGaps(ofs: nat, bytes: seq<bv8>, d: nat, i: nat)
    requires |bytes| <= 16 && i < 16
    ensures |bytes| <= i ==> Line(ofs, bytes, d)[d + 2 + 4 * i] == SP && Line(ofs, bytes, d)[d + 3 + 4 * i] == SP
    ensures Line(ofs, bytes, d)[d + 4 + 4 * i] == SP && Line(ofs, bytes, d)[d + 5 + 4 * i] == SP
  {
    LineHexCell(ofs, bytes, d, i, 0);
    LineHexCell(ofs, bytes, d, i, 1);
    LineHexCell(ofs, bytes, d, i, 2);
    LineHexCell(ofs, bytes, d, i, 3);
  }

  /** The sidebar cell of byte i shows it if printable and '.' otherwise; blank when missing. */
  lemma LineSide(ofs: nat, bytes: seq<bv8>, d: nat, i: nat)
    requires |bytes| <= 16 && i < 16
    ensures Line(ofs, bytes, d)[d + 66 + i] == if i < |bytes| then SideCell(bytes[i]) else SP
    ensures i < |bytes| ==> (Line(ofs, bytes, d)[d + 66 + i] == bytes[i] <==> Printable(bytes[i]))
  {
    LineAt(ofs, bytes, d, d + 66 + i);
  }
}

=== FILE: macros.dfy ===
/**
 * The constant tables and lane macros of the line encoder, each built from the
 * intrinsics exactly as the C macros compose them, followed by one lemma per
 * macro stating what it computes lane by lane.
 */
module Macros {
  import opened Arith
  import opened Lanes
  import opened Text

  /** z(c): a character offset by -' ', as stored in the digit table. */
  function Z(c: bv8): bv8
  {
    c - SP
  }

  /** conv_table: the sixteen hex digits '0'..'9', 'a'..'f', each offset by -' '. */
  const ConvTable: Vec :=
    [Z(0x30), Z(0x31), Z(0x32), Z(0x33), Z(0x34), Z(0x35), Z(0x36), Z(0x37),
     Z(0x38), Z(0x39), Z(0x61), Z(0x62), Z(0x63), Z(0x64), Z(0x65), Z(0x66)]

  /** flip_table: lane indices in reverse order. */
  const FlipTable: Vec := [15, 14, 13, 12, 11, 10, 9, 8, 7, 6, 5, 4, 3, 2, 1, 0]

  const Ones: Vec := Set1(1)           // tv
  const NibbleMask: Vec := Set1(0x0f)  // mv
  const Spaces: Vec := Set1(SP)        // sv
  const Dots: Vec := Set1(DOT)         // dv

  // ---- the macros ---------------------------------------------------------

  /** _unpack_nibble_fw: nibbles of the low eight bytes, least significant first. */
  function UnpackNibbleFw(x: Vec): Vec
  {
    var y := CvtEpu8Epi16(x);
    And(NibbleMask, Or(y, Slli16(y, 4)))
  }

  /** _unpack_nibble_low: nibbles of bytes 0..7, the high nibble of each byte first. */
  function UnpackNibbleLow(x: Vec): Vec
  {
    var y := CvtEpu8Epi16(x);
    Srli16(Or(y, Slli16(y, 12)), 4)
  }

  /** _unpack_nibble_high: nibbles of bytes 8..15, the high nibble of each byte first. */
  function UnpackNibbleHigh(x: Vec): Vec
  {
    var y := UnpackHiEpi8(x, SetZero());
    Srli16(Or(y, Slli16(y, 12)), 4)
  }

  /** _asciibase: nibble to offset hex digit through conv_table. */
  function AsciiBase(x: Vec): Vec
  {
    ShuffleEpi8(ConvTable, x)
  }

  /** _isascii: signed compare of x + 1 against ' '. */
  function IsAscii(x: Vec): Vec
  {
    CmpGtEpi8(AddEpi8(x, Ones), Spaces)
  }

  /** _select(m, y, x): y where the mask is set, else x. */
  function Select(m: Vec, y: Vec, x: Vec): Vec
  {
    BlendvEpi8(x, y, m)
  }

  /** _interleave_low: 16-bit lanes 0..3 spread to 32-bit lanes. */
  function InterleaveLow(x: Vec): Vec
  {
    CvtEpu16Epi32(x)
  }

  /** _interleave_high: 16-bit lanes 4..7 spread to 32-bit lanes. */
  function InterleaveHigh(x: Vec): Vec
  {
    CvtEpu16Epi32(SrliSi128(x, 8))
  }

  /** _flip(x, d): the first d lanes reversed into lanes 0..d-1, the rest zeroed. */
  function Flip(x: Vec, d: nat): Vec
    requires d <= 16
  {
    ShuffleEpi8(x, SubEpi8(FlipTable, Set1(ToByte(16 - d))))
  }

  /** _finish: add ' ' back to every lane. */
  function Finish(x: Vec): Vec
  {
    AddEpi8(Spaces, x)
  }

  // ---- lane semantics -----------------------------------------------------

  lemma UnpackNibbleFwLane(x: Vec, j: nat)
    requires j < 8
    ensures UnpackNibbleFw(x)[2 * j] == x[j] & 0x0f
    ensures UnpackNibbleFw(x)[2 * j + 1] == x[j] >> 4
  {
    var y := CvtEpu8Epi16(x);
    CvtEpu8Epi16Lane(x, j);
    var s := Slli16(y, 4);
    var w := Shl16(Lane16(y, j), 4);
    Slli16Lane(y, 4, j);
    ForwardBits(x[j]);
    var o := Or(y, s);
    assert o[2 * j] == x[j] | LowByte(w) && o[2 * j + 1] == 0 | HighByte(w);
  }

  lemma ForwardBits(b: bv8)
    ensures 0x0f & (b | LowByte(Shl16(Lane16Of(b, 0), 4))) == b & 0x0f
    ensures 0x0f & (0 | HighByte(Shl16(Lane16Of(b, 0), 4))) == b >> 4
  {}

  /** The forward unpack puts nibble n of the low eight bytes into lane n. */
  lemma UnpackNibbleFwLanes(x: Vec)
    ensures forall j :: 0 <= j < 8 ==>
      UnpackNibbleFw(x)[2 * j] == x[j] & 0x0f && UnpackNibbleFw(x)[2 * j + 1] == x[j] >> 4
  {
    forall j | 0 <= j < 8 {
      UnpackNibbleFwLane(x, j);
    }
  }

  /** Shared core of the two byte-splitting unpacks: lane pair (b, 0) becomes (b >> 4, b & 15). */
  lemma SplitLane(y: Vec, j: nat)
    requires j < 8 && y[2 * j + 1] == 0
    ensures Srli16(Or(y, Slli16(y, 12)), 4)[2 * j] == y[2 * j] >> 4
    ensures Srli16(Or(y, Slli16(y, 12)), 4)[2 * j + 1] == y[2 * j] & 0x0f
  {
    var s := Slli16(y, 12);
    Slli16Lane(y, 12, j);
    var o := Or(y, s);
    assert o[2 * j] == y[2 * j] | s[2 * j] && o[2 * j + 1] == y[2 * j + 1] | s[2 * j + 1];
    Srli16Lane(o, 4, j);
  }

  /** Bytes 0..7 split into (high nibble, low nibble) lane pairs. */
  lemma UnpackNibbleLowLanes(x: Vec)
    ensures forall j :: 0 <= j < 8 ==>
      UnpackNibbleLow(x)[2 * j] == x[j] >> 4 && UnpackNibbleLow(x)[2 * j + 1] == x[j] & 0x0f
  {
    var y := CvtEpu8Epi16(x);
    forall j | 0 <= j < 8
      ensures UnpackNibbleLow(x)[2 * j] == x[j] >> 4 && UnpackNibbleLow(x)[2 * j + 1] == x[j] & 0x0f
    {
      CvtEpu8Epi16Lane(x, j);
      SplitLane(y, j);
    }
  }

  /** Bytes 8..15 split into (high nibble, low nibble) lane pairs. */
  lemma UnpackNibbleHighLanes(x: Vec)
    ensures forall j :: 0 <= j < 8 ==>
      UnpackNibbleHigh(x)[2 * j] == x[8 + j] >> 4 && UnpackNibbleHigh(x)[2 * j + 1] == x[8 + j] & 0x0f
  {
    var y := UnpackHiEpi8(x, SetZero());
    forall j | 0 <= j < 8
      ensures UnpackNibbleHigh(x)[2 * j] == x[8 + j] >> 4
      ensures UnpackNibbleHigh(x)[2 * j + 1] == x[8 + j] & 0x0f
    {
      assert y[2 * j] == x[8 + j] && y[2 * j + 1] == 0;
      SplitLane(y, j);
    }
  }

  /**
   * The table lemma: a nibble looked up in conv_table and shifted back by ' '
   * is its lowercase hex digit; an index with bit 7 set comes out as ' '.
   */
  lemma AsciiBaseLanes(x: Vec)
    ensures forall k :: 0 <= k < 16 && x[k] < 16 ==> Finish(AsciiBase(x))[k] == HexDigit(x[k])
    ensures forall k :: 0 <= k < 16 && x[k] & 0x80 != 0 ==> Finish(AsciiBase(x))[k] == SP
  {
    forall k | 0 <= k < 16 && x[k] < 16
      ensures Finish(AsciiBase(x))[k] == HexDigit(x[k])
    {
      AsciiBaseLane(x, k);
    }
  }

  lemma AsciiBaseLane(x: Vec, k: nat)
    requires k < 16 && x[k] < 16
    ensures Finish(AsciiBase(x))[k] == HexDigit(x[k])
  {
    assert x[k] & 0x80 == 0 && (x[k] & 0x0f) == x[k];
    TableEntry(x[k]);
  }

  lemma TableEntry(n: bv8)
    requires n < 16
    ensures SP + ConvTable[n as int] == HexDigit(n)
  {}

  /** The printable test passes exactly the bytes 0x20..0x7e, as an all-ones lane. */
  lemma IsAsciiLanes(x: Vec)
    ensures forall k :: 0 <= k < 16 ==> IsAscii(x)[k] == if Printable(x[k]) then 0xff else 0
  {
    forall k | 0 <= k < 16
      ensures IsAscii(x)[k] == if Printable(x[k]) then 0xff else 0
    {
      SignedSuccessor(x[k]);
    }
  }

  lemma SignedSuccessor(b: bv8)
    ensures Signed(b + 1) > Signed(SP) <==> Printable(b)
  {}

  /** The sidebar vector: each byte if printable, else '.'. */
  lemma SelectAsciiLanes(x: Vec)
    ensures forall k :: 0 <= k < 16 ==> Select(IsAscii(x), x, Dots)[k] == SideCell(x[k])
  {
    IsAsciiLanes(x);
  }

  /** 16-bit lanes 0..3 become 32-bit lanes: each byte pair followed by two zero bytes. */
  lemma InterleaveLowLanes(x: Vec)
    ensures forall m :: 0 <= m < 4 ==>
      && InterleaveLow(x)[4 * m] == x[2 * m] && InterleaveLow(x)[4 * m + 1] == x[2 * m + 1]
      && InterleaveLow(x)[4 * m + 2] == 0 && InterleaveLow(x)[4 * m + 3] == 0
  {
    forall m | 0 <= m < 4
      ensures InterleaveLow(x)[4 * m] == x[2 * m] && InterleaveLow(x)[4 * m + 1] == x[2 * m + 1]
      ensures InterleaveLow(x)[4 * m + 2] == 0 && InterleaveLow(x)[4 * m + 3] == 0
    {
      WidenLane(x, m);
    }
  }

  lemma WidenLane(x: Vec, m: nat)
    requires m < 4
    ensures CvtEpu16Epi32(x)[4 * m] == x[2 * m] && CvtEpu16Epi32(x)[4 * m + 1] == x[2 * m + 1]
    ensures CvtEpu16Epi32(x)[4 * m + 2] == 0 && CvtEpu16Epi32(x)[4 * m + 3] == 0
  {
    WidenBits(x[2 * m], x[2 * m + 1]);
    CvtEpu16Epi32Lane(x, m, 0);
    CvtEpu16Epi32Lane(x, m, 1);
    CvtEpu16Epi32Lane(x, m, 2);
    CvtEpu16Epi32Lane(x, m, 3);
  }

  lemma WidenBits(lo: bv8, hi: bv8)
    ensures Byte32(Widen16(Lane16Of(lo, hi)), 0) == lo && Byte32(Widen16(Lane16Of(lo, hi)), 1) == hi
    ensures Byte32(Widen16(Lane16Of(lo, hi)), 2) == 0 && Byte32(Widen16(Lane16Of(lo, hi)), 3) == 0
  {}

  /** 16-bit lanes 4..7 become 32-bit lanes: each byte pair followed by two zero bytes. */
  lemma InterleaveHighLanes(x: Vec)
    ensures forall m :: 0 <= m < 4 ==>
      && InterleaveHigh(x)[4 * m] == x[8 + 2 * m] && InterleaveHigh(x)[4 * m + 1] == x[9 + 2 * m]
      && InterleaveHigh(x)[4 * m + 2] == 0 && InterleaveHigh(x)[4 * m + 3] == 0
  {
    forall m | 0 <= m < 4
      ensures InterleaveHigh(x)[4 * m] == x[8 + 2 * m] && InterleaveHigh(x)[4 * m + 1] == x[9 + 2 * m]
      ensures InterleaveHigh(x)[4 * m + 2] == 0 && InterleaveHigh(x)[4 * m + 3] == 0
    {
      InterleaveHighLane(x, m);
    }
  }

  lemma InterleaveHighLane(x: Vec, m: nat)
    requires m < 4
    ensures InterleaveHigh(x)[4 * m] == x[8 + 2 * m] && InterleaveHigh(x)[4 * m + 1] == x[9 + 2 * m]
    ensures InterleaveHigh(x)[4 * m + 2] == 0 && InterleaveHigh(x)[4 * m + 3] == 0
  {
    var h := SrliSi128(x, 8);
    WidenLane(h, m);
    assert h[2 * m] == x[8 + 2 * m] && h[2 * m + 1] == x[9 + 2 * m];
  }

  /** Flip by d: lane k < d takes lane d-1-k, every lane from d on is zero. */
  lemma FlipLanes(x: Vec, d: nat)
    requires d <= 16
    ensures forall k :: 0 <= k < d ==> Flip(x, d)[k] == x[d - 1 - k]
    ensures forall k :: d <= k < 16 ==> Flip(x, d)[k] == 0
  {
    forall k | 0 <= k < 16
      ensures Flip(x, d)[k] == if k < d then x[d - 1 - k] else 0
    {
      FlipLane(x, d, k);
    }
  }

  lemma FlipLane(x: Vec, d: nat, k: nat)
    requires d <= 16 && k < 16
    ensures Flip(x, d)[k] == if k < d then x[d - 1 - k] else 0
  {
    var c := ToByte(16 - d);
    ToByteValue(16 - d);
    var idx := SubEpi8(FlipTable, Set1(c));
    assert idx[k] == FlipTable[k] - c;
    FlipTableEntry(k);
    FlipIndex(FlipTable[k], c, k, d);
  }

  lemma FlipTableEntry(k: nat)
    requires k < 16
    ensures FlipTable[k] as int == 15 - k
  {}

  lemma FlipIndex(f: bv8, c: bv8, k: nat, d: nat)
    requires k < 16 && d <= 16 && f as int == 15 - k && c as int == 16 - d
    ensures k < d ==> (f - c) & 0x80 == 0 && ((f - c) & 0x0f) as int == d - 1 - k
    ensures d <= k ==> (f - c) & 0x80 != 0
  {}
}

=== FILE: patcher.dfy ===
/**
 * `patch`: after the last, short block of a chunk the line conv wrote still
 * shows all 16 bytes of the over-read block; patch blanks the digits and the
 * sidebar cells of the bytes past the end of the data.
 */
module Patcher {
  import opened Text
  import opened Layout
  import opened Encoder

  /**
   * Whether offset `off` from the start of the hex field is a digit cell or a
   * sidebar cell of one of the bytes lo..hi-1.
   */
  predicate Cleared(off: int, lo: int, hi: int)
  {
    || (0 <= off < 64 && off % 4 < 2 && lo <= off / 4 < hi)
    || (64 <= off < 80 && lo <= off - 64 < hi)
  }

  /** The cells patch blanks: those of bytes rem..15. */
  predicate Blanked(off: int, rem: nat)
  {
    Cleared(off, rem, 16)
  }

  /**
   * The buffer after patch, described as a whole: every cell whose offset
   * from base = tail - 81 is Blanked becomes a space.
   */
  function Patched(buf: seq<bv8>, tail: int, rem: nat): (r: seq<bv8>)
    ensures |r| == |buf|
  {
    seq(|buf|, k requires 0 <= k < |buf| => if Blanked(k - (tail - 81), rem) then SP else buf[k])
  }

  /** Only bytes below 16 have cells to clear. */
  lemma NothingBlanked(off: int, rem: nat)
    requires rem >= 16
    ensures !Blanked(off, rem)
  {
    if 0 <= off < 64 {
      assert off / 4 < 16;
    }
  }

  /** Clearing byte i as well extends the cleared range by one. */
  lemma ClearedStep(off: int, lo: int, i: int)
    requires 0 <= lo <= i < 16
    ensures Cleared(off, lo, i + 1) <==> Cleared(off, lo, i) || off == 4 * i || off == 4 * i + 1 || off == 64 + i
  {
    if 0 <= off < 64 {
      assert off / 4 == i <==> off == 4 * i || off == 4 * i + 1 || off == 4 * i + 2 || off == 4 * i + 3;
    }
  }

  /**
   * patch(rem, tail): for i from rem to 15 it blanks base[4i], base[4i+1] and
   * base[64+i], base being tail - 81. The result is Patched; in particular it
   * changes no other cell, and nothing at all when rem >= 16.
   */
  method Patch(rem: nat, buf: seq<bv8>, tail: nat) returns (r: seq<bv8>)
    requires rem >= 16 || 81 <= tail <= |buf|
    ensures r == Patched(buf, tail, rem)
    ensures forall k :: 0 <= k < |buf| && !Blanked(k - (tail - 81), rem) ==> r[k] == buf[k]
    ensures forall i :: rem <= i < 16 ==>
      && r[tail - 81 + 4 * i] == SP && r[tail - 81 + 4 * i + 1] == SP && r[tail - 81 + 64 + i] == SP
  {
    r := buf;
    if rem < 16 {
      var base := tail - 81;
      var i := rem;
      while i < 16
        invariant rem <= i <= 16
        invariant |r| == |buf|
        invariant forall k :: 0 <= k < |buf| ==> r[k] == if Cleared(k - base, rem, i) then SP else buf[k]
      {
        var next := r[base + 4 * i := SP][base + 4 * i + 1 := SP][base + 64 + i := SP];
        forall k | 0 <= k < |buf|
          ensures next[k] == if Cleared(k - base, rem, i + 1) then SP else buf[k]
        {
          ClearedStep(k - base, rem, i);
        }
        r := next;
        i := i + 1;
      }
      forall k | 0 <= k < |buf|
        ensures r[k] == Patched(buf, tail, rem)[k]
      {
        assert i == 16;
        assert Blanked(k - (tail - 81), rem) == Cleared(k - base, rem, 16);
      }
    } else {
      forall k | 0 <= k < |buf|
        ensures r[k] == Patched(buf, tail, rem)[k]
      {
        NothingBlanked(k - (tail - 81), rem);
      }
    }
    forall i | rem <= i < 16
      ensures Blanked(4 * i, rem) && Blanked(4 * i + 1, rem) && Blanked(64 + i, rem)
    {
      assert (4 * i) / 4 == i && (4 * i + 1) / 4 == i;
    }
  }

  /** Patching twice is patching once. */
  lemma PatchIdempotent(buf: seq<bv8>, tail: int, rem: nat)
    ensures Patched(Patched(buf, tail, rem), tail, rem) == Patched(buf, tail, rem)
  {
    var once := Patched(buf, tail, rem);
    forall k | 0 <= k < |buf|
      ensures Patched(once, tail, rem)[k] == once[k]
    {}
  }

  /** With 16 or more bytes remaining patch changes nothing. */
  lemma PatchFullBlock(buf: seq<bv8>, tail: int, rem: nat)
    requires rem >= 16
    ensures Patched(buf, tail, rem) == buf
  {
    forall k | 0 <= k < |buf|
      ensures Patched(buf, tail, rem)[k] == buf[k]
    {
      NothingBlanked(k - (tail - 81), rem);
    }
  }

  // ---- patch after conv --------------------------------------------------------

  /**
   * conv followed by patch(rem) leaves the line of the first rem bytes of the
   * block: the bytes conv over-read past them leave no trace.
   */
  lemma PatchLine(ofs: nat, block: seq<bv8>, d: nat, dst: seq<bv8>, at: nat, rem: nat)
    requires |block| == 16 && rem <= 16 && at + d + 83 <= |dst|
    ensures Patched(Placed(dst, at, Line(ofs, block, d)), at + d + 83, rem)
         == Placed(dst, at, Line(ofs, block[..rem], d))
  {
    var full, short := Line(ofs, block, d), Line(ofs, block[..rem], d);
    var before, after := Placed(dst, at, full), Placed(dst, at, short);
    forall k | 0 <= k < |dst|
      ensures Patched(before, at + d + 83, rem)[k] == after[k]
    {
      PlacedAt(dst, at, full, k);
      PlacedAt(dst, at, short, k);
      assert Patched(before, at + d + 83, rem)[k]
          == if Blanked(k - at - d - 2, rem) then SP else before[k];
      if at <= k < at + d + 83 {
        PatchLineCell(ofs, block, d, rem, k - at);
      }
    }
  }

  /** One cell of PatchLine, o counted from the start of the line. */
  lemma PatchLineCell(ofs: nat, block: seq<bv8>, d: nat, rem: nat, o: nat)
    requires |block| == 16 && rem <= 16 && o < d + 83
    ensures (if Blanked(o - d - 2, rem) then SP else Line(ofs, block, d)[o]) == Line(ofs, block[..rem], d)[o]
  {
    if o < d + 2 || o == d + 82 {
      LineAt(ofs, block, d, o);
      LineAt(ofs, block[..rem], d, o);
    } else if o < d + 66 {
      var q := o - d - 2;
      var i, c := q / 4, q % 4;
      assert q == 4 * i + c;
      LineHexCell(ofs, block, d, i, c);
      LineHexCell(ofs, block[..rem], d, i, c);
    } else {
      LineSide(ofs, block, d, o - d - 66);
      LineSide(ofs, block[..rem], d, o - d - 66);
    }
  }

  /** Hence the patched line depends on ofs, d and the first rem bytes of the block only. */
  lemma PatchForgetsOverread(ofs: nat, a: seq<bv8>, b: seq<bv8>, d: nat, dst: seq<bv8>, at: nat, rem: nat)
    requires |a| == 16 && |b| == 16 && rem <= 16 && at + d + 83 <= |dst|
    requires a[..rem] == b[..rem]
    ensures Patched(Placed(dst, at, Line(ofs, a, d)), at + d + 83, rem)
         == Patched(Placed(dst, at, Line(ofs, b, d)), at + d + 83, rem)
  {
    PatchLine(ofs, a, d, dst, at, rem);
    PatchLine(ofs, b, d, dst, at, rem);
  }
}

=== FILE: text.dfy ===
/**
 * The textual pieces of a dump line, defined one character at a time with no
 * reference to vector lanes: lowercase hex digits, the offset field, the
 * printable-byte test of the sidebar, and parsers that read digits back.
 */
module Text {
  import opened Arith

  datatype Option<T> = None | Some(value: T)

  const SP: bv8 := 0x20   // ' '
  const DOT: bv8 := 0x2e  // '.'
  const LF: bv8 := 0x0a   // '\n'

  /** The value of one ASCII hex digit, upper case excluded. */
  function DigitValue(c: bv8): Option<nat>
  {
    var n := c as int;
    if 0x30 <= n <= 0x39 then Some(n - 0x30)          // '0'..'9'
    else if 0x61 <= n <= 0x66 then Some(n - 0x61 + 10)  // 'a'..'f'
    else None
  }

  /** The lowercase ASCII hex digit of a nibble: '0'..'9', then 'a'..'f'. */
  function HexDigit(v: bv8): bv8
  {
    if v < 10 then 0x30 + v else 0x57 + v
  }

  /** A hex digit is one of '0'..'9', 'a'..'f' and reads back as its nibble. */
  lemma HexDigitValue(v: bv8)
    requires v < 16
    ensures 0x30 <= HexDigit(v) <= 0x39 || 0x61 <= HexDigit(v) <= 0x66
    ensures DigitValue(HexDigit(v)) == Some(v as int)
  {}

  /** The value of two hex digits, the more significant first. */
  function ParseByte(hi: bv8, lo: bv8): Option<nat>
  {
    Shift(DigitValue(hi), DigitValue(lo))
  }

  /** A value read so far followed by one more digit. */
  function Shift(h: Option<nat>, l: Option<nat>): Option<nat>
  {
    if h.Some? && l.Some? then Some(16 * h.value + l.value) else None
  }

  /** The value of a string of hex digits, most significant first. */
  function ParseHex(s: seq<bv8>): Option<nat>
  {
    if |s| == 0 then Some(0)
    else Shift(ParseHex(s[..|s| - 1]), DigitValue(s[|s| - 1]))
  }

  /** Nibble n (counted from the least significant) of v. */
  function Nibble(v: nat, n: nat): (r: nat)
    ensures r < 16
  {
    if n == 0 then v % 16 else Nibble(v / 16, n - 1)
  }

  /** The d least significant hex digits of v, most significant first. */
  function HexOf(v: nat, d: nat): (s: seq<bv8>)
    ensures |s| == d
  {
    if d == 0 then [] else HexOf(v / 16, d - 1) + [HexDigit(ToByte(v % 16))]
  }

  /** Character k of the offset field is the digit of nibble d-1-k. */
  lemma {:induction false} HexOfDigit(v: nat, d: nat, k: nat)
    requires k < d
    ensures HexOf(v, d)[k] == HexDigit(ToByte(Nibble(v, d - 1 - k)))
  {
    if k < d - 1 {
      assert HexOf(v, d)[k] == HexOf(v / 16, d - 1)[k];
      HexOfDigit(v / 16, d - 1, k);
    }
  }

  /** Reading the offset field back gives the offset modulo 16^d. */
  lemma {:induction false} ParseHexOf(v: nat, d: nat)
    ensures ParseHex(HexOf(v, d)) == Some(v % Pow(16, d))
  {
    if d > 0 {
      ParseHexOf(v / 16, d - 1);
      ParseHexOfStep(v, d);
    }
  }

  /** The offset field read back: one more digit on the right. */
  lemma ParseHexOfStep(v: nat, d: nat)
    requires d > 0 && ParseHex(HexOf(v / 16, d - 1)) == Some((v / 16) % Pow(16, d - 1))
    ensures ParseHex(HexOf(v, d)) == Some(v % Pow(16, d))
  {
    HexOfLast(v, d);
    ParseHexLast(HexOf(v, d), (v / 16) % Pow(16, d - 1), v % 16);
    DigitResidue(v, d);
  }

  /** The residue modulo 16^d is the residue of v / 16 modulo 16^(d-1), then the last digit. */
  lemma DigitResidue(v: nat, d: nat)
    requires d > 0
    ensures v % Pow(16, d) == 16 * ((v / 16) % Pow(16, d - 1)) + v % 16
  {
    ModMul(v, 16, Pow(16, d - 1));
  }

  lemma HexOfLast(v: nat, d: nat)
    requires d > 0
    ensures HexOf(v, d)[..d - 1] == HexOf(v / 16, d - 1)
    ensures DigitValue(HexOf(v, d)[d - 1]) == Some(v % 16)
  {
    ToByteValue(v % 16);
    HexDigitValue(ToByte(v % 16));
  }

  lemma ParseHexLast(s: seq<bv8>, h: nat, l: nat)
    requires |s| > 0 && ParseHex(s[..|s| - 1]) == Some(h) && DigitValue(s[|s| - 1]) == Some(l)
    ensures ParseHex(s) == Some(16 * h + l)
  {}

  /** The sidebar accepts exactly the printable ASCII range ' '..'~'. */
  predicate Printable(b: bv8)
  {
    0x20 <= b <= 0x7e
  }

  /** The sidebar character of a byte. */
  function SideCell(b: bv8): bv8
  {
    if Printable(b) then b else DOT
  }
}
